=== FILE: README.md ===
# NFT marketplace indexer — a Dafny model

This project models the server side of an NFT marketplace front end. Its core
is an event-log indexer. It reads the marketplace contract's `Listed`,
`Canceled` and `Purchased` logs from an RPC provider and keeps a projection of
the active listings in a key/value store (Redis). Read routes serve that
projection.

- `Sync` models `runSync`. It takes a store lock and computes the confirmed
  tip (`tip - confirmations`) and a start block (the cursor minus a reorg
  backtrack, never below the deploy block). It walks the range in windows.
  Each block is first tried at the preferred span. The span is halved, as the
  code halves it, and the same window retried when the provider says the
  range is too large. It applies each window's events, moves the cursor to
  the window's end, goes back to the preferred span, and releases the lock on
  every way out.
- `Storage` models the active-listing store: keys namespaced by chain id and
  marketplace address, the lock, the block cursor, the set of active ids, one
  record per id, and `readAllActive`.
- `Kv` is the Redis backend: one map from key to value, with the commands
  the source issues. The storage layer and the clear route use two different
  clients; the model takes them to reach one store.
- `Events` holds log decoding (`toTopics`, `pick`, the three event kinds) and
  the reference semantics "the last event about a listing decides it".
- `Query` is `GET /api/indexer/active`: filter by seller, collection and price
  bounds, sort by id (newest first), keep the ids below the cursor, and cut a
  page with a next cursor.
- `Projection` is `GET /api/active`: one log query over the last 150,000
  blocks, folded into an insertion-ordered map. As written, the route's JSON
  reply cannot encode the `bigint` amounts, so it answers 500 whenever a
  listing is active; see the findings.
- `Admin` is `POST /api/indexer/admin/clear`. `Middleware` is the admin-token
  guard. `Ipfs` is `toHttp`.

The RPC provider and the ABI decoder are parameters. `getBlockNumber`
is a `Response<nat>`, `getLogs` is a function from a block window to a
`Response`, and `decodeEventLog` is a `Decoder` function. The environment
variables (chain id, marketplace address, span, confirmations, deploy block)
are parameters too.

Three behaviours of the code that are easy to misread:

- When the confirmed tip is 0, `runSync` returns an all-zero summary. That is
  the same answer as "lock busy", and the sync route
  (`frontend/src/app/api/indexer/sync/route.ts:11`) reports it as busy (409).
- After a complete run, the returned `from` is the cursor re-read from the
  store. That is the safe tip, not the block where the run started.
- The clear route deletes only the un-namespaced `idx:` keys. The storage
  layer writes every key under its chain/marketplace namespace, so the
  indexer's state survives the clear. See the findings below.

## Model

| member | source | states |
|---|---|---|
| Strings.Lower | frontend/src/lib/indexer/storage.ts:18 | lowercasing keeps the length and leaves no upper-case ASCII letter: each one becomes its lower-case partner (code + 32) and every other character is kept |
| Strings.LowerIdempotent | frontend/src/lib/indexer/storage.ts:18 | lowercasing twice is lowercasing once |
| Strings.IndexFrom | frontend/src/lib/indexer/sync.ts:139-140 | the index returned is the first occurrence of the pattern at or after `from`; none means no occurrence |
| Strings.Contains | frontend/src/lib/indexer/sync.ts:139-140 | `includes` holds exactly when the pattern occurs at some position |
| Strings.StripPrefix | frontend/src/lib/ipfs.ts:4 | replacing the first occurrence of a prefix with nothing drops exactly that prefix |
| Strings.Decimal | frontend/src/lib/indexer/storage.ts:23 | `String(bigint)` is a non-empty run of digits with no leading zero |
| Strings.ParseDecimalOfDecimal | frontend/src/lib/indexer/storage.ts:37-43 | a block number written as decimal text reads back as the same number |
| Strings.DecimalInjective | frontend/src/lib/indexer/sync.ts:173 | distinct listing ids have distinct decimal strings |
| Ipfs.ToHttp | frontend/src/lib/ipfs.ts:1-8 | a missing or empty URL gives ""; `ipfs://<cid>` gives the gateway URL for `<cid>`; anything else is returned unchanged |
| Ipfs.GatewayIsNotIpfs | frontend/src/lib/ipfs.ts:3-5 | a gateway URL never starts with `ipfs://` |
| Ipfs.ToHttpIdempotent | frontend/src/lib/ipfs.ts:1-8 | rewriting an already rewritten URL changes nothing |
| Middleware.Guard | frontend/middleware.ts:4-14 | paths outside the admin prefix pass; an admin path passes if and only if the token is configured, non-empty and equal to the header |
| Events.ToTopics | frontend/src/lib/indexer/sync.ts:63-70 | a missing or empty topic list becomes `[]`; otherwise the topics are kept as they are |
| Events.PickAgrees | frontend/src/lib/indexer/sync.ts:73-77 | for arguments given both by name and by position, `pick` returns the same value either way |
| Events.Classify | frontend/src/lib/indexer/sync.ts:153-180 | `Listed` carries the id, collection, token, seller and price that `pick` finds; `Canceled` and `Purchased` carry the picked id; undecodable logs and other event names are ignored; conversely, a decoded `Listed` whose five arguments `pick` finds with the right types gives exactly that listing, and a decoded `Canceled` or `Purchased` with a numeric id gives that id |
| Events.ClassifyEncodingIndependent | frontend/src/lib/indexer/sync.ts:72-77 | classifying a decoded event does not depend on whether its arguments came as a tuple or as an object |
| Events.EventsOf | frontend/src/lib/indexer/sync.ts:151-158 | one event per log, in log order |
| Events.EventsOfPrefix | frontend/src/lib/indexer/sync.ts:151-158 | the events of one more log are the earlier events followed by that log's event |
| Events.LastFor | frontend/src/lib/indexer/sync.ts:151-184 | the event returned is about the listing and no later event is; none means no event is about it |
| Events.LastForAppend | frontend/src/lib/indexer/sync.ts:119-193 | the last event about a listing in `a + b` is its last in `b`, or else its last in `a` |
| Events.ExpectedAppend | frontend/src/lib/indexer/sync.ts:119-193 | applying two batches one after the other has the same effect as applying them concatenated |
| Events.ExpectedStep | frontend/src/lib/indexer/sync.ts:160-180 | one more event changes only the listing it is about: `Listed` sets its record, `Canceled`/`Purchased` clear it |
| Events.ExpectedFromNothing | frontend/src/app/api/active/route.ts:41-69 | from an empty state, a listing is present exactly when its last event is a `Listed` |
| Kv.AddMember | frontend/src/lib/indexer/storage.ts:49 | `SADD` adds the id to the set and leaves every other key alone |
| Kv.RemoveMember | frontend/src/lib/indexer/storage.ts:56 | `SREM` removes the id from the set and leaves every other key alone |
| Kv.Redis.SetNx | frontend/src/lib/indexer/storage.ts:29 | `SET NX` succeeds if and only if the key was absent, and writes only then |
| Kv.Redis.MGet | frontend/src/lib/indexer/storage.ts:68 | one answer per key, in key order, each the key's current value |
| Kv.Redis.SMembers | frontend/src/lib/indexer/storage.ts:62-63 | the ids returned are exactly the set's members, each once |
| Storage.ChainId | frontend/src/lib/indexer/storage.ts:17 | the chain id is never empty: the configured one when it is non-empty, else 11155111 |
| Storage.Namespace | frontend/src/lib/indexer/storage.ts:16-19 | the namespace is the chain id, a colon, and the lower-cased marketplace address |
| Storage.KeysDistinct | frontend/src/lib/indexer/storage.ts:16-24 | distinct ids get distinct record keys, and no record key equals the cursor, id-set or lock key |
| Storage.UpsertViews | frontend/src/lib/indexer/storage.ts:46-51 | an upsert sets that id's record and adds it to the set; other records, the cursor and the lock are unchanged |
| Storage.RemoveViews | frontend/src/lib/indexer/storage.ts:53-58 | a removal clears that id's record and drops it from the set; other records, the cursor and the lock are unchanged |
| Storage.UpsertIdempotent | frontend/src/lib/indexer/storage.ts:46-51 | upserting the same record twice equals upserting it once |
| Storage.RemoveIdempotent | frontend/src/lib/indexer/storage.ts:53-58 | removing twice equals removing once |
| Storage.CursorViews | frontend/src/lib/indexer/storage.ts:41-43 | writing the cursor sets it and leaves every record, the id set and the lock as they were |
| Storage.LockViews | frontend/src/lib/indexer/storage.ts:27-34 | taking the lock makes it held and freeing it makes it free; neither touches records, the id set or the cursor |
| Storage.ApplyEvent | frontend/src/lib/indexer/sync.ts:160-180 | `Listed` makes the id tracked with its record; `Canceled` and `Purchased` untrack it and clear its record; other ids, the cursor and the lock are unchanged; an unrecognized log changes nothing |
| Storage.RemovedOthers | frontend/src/lib/indexer/storage.ts:53-58 | a removal clears one id's record and set membership and leaves every other record, the cursor and the lock as they were |
| Storage.ApplyEventsViews | frontend/src/lib/indexer/sync.ts:151-184 | after a batch of events, each record is what the listing's last event leaves, each id is tracked exactly when that event is a `Listed` (or, with no event, as before), and the cursor and lock are unchanged |
| Storage.ApplyEventsSnoc | frontend/src/lib/indexer/sync.ts:151-184 | applying one more event is applying it to the store the earlier events left |
| Storage.OrderMatters | frontend/src/lib/indexer/sync.ts:151-184 | `Listed` then `Canceled` leaves no record; `Canceled` then `Listed` leaves the record |
| Storage.AcquireLock | frontend/src/lib/indexer/storage.ts:27-31 | the lock is granted if and only if it was free, and afterwards it is held |
| Storage.ReleaseLock | frontend/src/lib/indexer/storage.ts:32-34 | the lock is freed whoever holds it, and nothing else changes |
| Storage.GetLastBlock | frontend/src/lib/indexer/storage.ts:37-40 | returns the stored cursor, or 0 when none is stored |
| Storage.SetLastBlock | frontend/src/lib/indexer/storage.ts:41-43 | afterwards the cursor reads as the given block |
| Storage.UpsertActive | frontend/src/lib/indexer/storage.ts:46-51 | afterwards the id is tracked and its record is the given one |
| Storage.RemoveActive | frontend/src/lib/indexer/storage.ts:53-58 | afterwards the id is untracked and has no record |
| Storage.ReadAllActive | frontend/src/lib/indexer/storage.ts:61-78 | no rows for an empty set; each row is a tracked id with its stored record; every tracked id with a readable record appears; ids are distinct |
| Sync.SafeTip | frontend/src/lib/indexer/sync.ts:98 | the confirmed tip lies `confirmations` below the tip, and is 0 exactly when the tip is within `confirmations` of genesis |
| Sync.StartBlock | frontend/src/lib/indexer/sync.ts:104-108 | the caller's `from`, else the cursor minus the backtrack, else the deploy block (or the safe tip); never below the deploy block |
| Sync.PreferredSpan | frontend/src/lib/indexer/sync.ts:114-115 | the requested span or `MAX_BLOCK_SPAN`, raised to at least 10 |
| Sync.ShrinkAsWritten | frontend/src/lib/indexer/sync.ts:144 | the span after a "range too large" error, as written: a span above 10 is halved (rounding down), any other becomes 10; its behaviour is pinned by `Sync.ShrinkAsWrittenBreaksFloor`, `Sync.DefaultSpanDipsToSix` and `Sync.SpanAfter` |
| Sync.ShrinkAsWrittenBreaksFloor | frontend/src/lib/indexer/sync.ts:144 | as written, halving a span of 11 to 19 gives less than 10 |
| Sync.DefaultSpanDipsToSix | frontend/src/lib/indexer/sync.ts:144 | as written, from the default 100 the spans go 50, 25, 12, 6 and then back up to 10 |
| Sync.Shrink | frontend/src/lib/indexer/sync.ts:144 | the shrunk span is half the old one, at least 10, and smaller than the old one whenever that was above 10 |
| Sync.IsRangeTooLarge | frontend/src/lib/indexer/sync.ts:131-142 | an error counts as "range too large" exactly when its message contains "exceeds max results" or "Invalid parameters", or its code is -32602 |
| Sync.SpanAfter | frontend/src/lib/indexer/sync.ts:143-145 | after any number of refusals at one block, the span halved as written lies between 5 and the preferred span |
| Sync.Attempt | frontend/src/lib/indexer/sync.ts:119-145 | the window tried after `k` refusals starts at `from`, ends at or before the safe tip and is at most the preferred span wide |
| Sync.ChunkEnd | frontend/src/lib/indexer/sync.ts:120-121 | a window starts at `from`, ends at or before the safe tip, and is `span` blocks wide unless it is cut short by the safe tip |
| Sync.TilesWindows | frontend/src/lib/indexer/sync.ts:119-188 | contiguous windows start at `start`, are each non-empty, each start right after the one before, and end just before the next block |
| Sync.FetchedBoundedWindows | frontend/src/lib/indexer/sync.ts:120-129 | every window holds the provider's answer for it, ends at or before the safe tip and is at most the span wide |
| Sync.ExtendChunks | frontend/src/lib/indexer/sync.ts:119-188 | adding the next fetched window keeps the windows contiguous, provider-sourced and within bounds |
| Sync.ExtendPaced | frontend/src/lib/indexer/sync.ts:119-192 | a window fetched after its refusals, as the span policy dictates, extends a paced run |
| Sync.ExtendScanned | frontend/src/lib/indexer/sync.ts:119-192 | one more fetched window keeps the run contiguous, provider-sourced, within bounds and paced, and moves its reach to the block after the window |
| Sync.CursorWritesIncrease | frontend/src/lib/indexer/sync.ts:186-188 | successive cursor writes strictly increase |
| Sync.ApplyChunksSnoc | frontend/src/lib/indexer/sync.ts:119-193 | applying one more window is applying it to the store the earlier windows left |
| Sync.ApplyChunksViews | frontend/src/lib/indexer/sync.ts:151-188 | after the windows, each listing is what the windows' events leave, the cursor is the last window's end, and the lock is unchanged |
| Sync.RunEffect | frontend/src/lib/indexer/sync.ts:91-198 | a run that took the lock leaves each listing as its events dictate, the cursor at the last applied window's end, and the lock free, whatever the outcome |
| Sync.ApplyLogs | frontend/src/lib/indexer/sync.ts:151-184 | the store after a window's logs is the store after its events, in log order |
| Sync.ApplyWindow | frontend/src/lib/indexer/sync.ts:151-186 | the store after a window is the store after its events, in log order, with the cursor at the window's last block |
| Sync.ScanWindow | frontend/src/lib/indexer/sync.ts:117-193 | the windows tile `[start, safeTip]` without gap or overlap, each holds what the provider returned and is at most the preferred span; at each block the first try is at the preferred span, and each later try there follows a "range too large" refusal with the span halved as written; it ends either at `safeTip` with every block scanned, or with the error the provider gave for the try in progress, which is not "range too large" |
| Sync.RunSync | frontend/src/lib/indexer/sync.ts:87-199 | busy gives zeros and no change; otherwise the store is the windows applied and the lock released; a provider error is returned; confirmed tip 0 gives zeros; a start past the safe tip gives `(0, start, safeTip, safeTip)`; the windows follow the span policy of `Sync.ScanWindow`; a window error is the provider's answer to the try in progress; a complete run scanned `safeTip - start + 1` blocks and reports the cursor at `safeTip` |
| Projection.ScanStart | frontend/src/app/api/active/route.ts:33 | the scan starts 150,000 blocks below the latest block, or at 0 on a younger chain |
| Projection.Without | frontend/src/app/api/active/route.ts:61 | deleting a key removes exactly it, keeps the others distinct, and changes nothing when the key is absent |
| Projection.WithoutCutsOut | frontend/src/app/api/active/route.ts:61 | deleting a key that sits at one position cuts out that position and keeps the others in order |
| Projection.ActiveMap.Set | frontend/src/app/api/active/route.ts:58 | `Map.set` writes the entry; a new key goes last, an existing key keeps its place |
| Projection.ActiveMap.Delete | frontend/src/app/api/active/route.ts:59-64 | `Map.delete` removes the entry and cuts the key out of the insertion order, keeping the rest in order; deleting an absent key changes nothing |
| Projection.ActiveMap.Rows | frontend/src/app/api/active/route.ts:72 | one row per entry, each carrying its key as id and its value, ids distinct |
| Projection.FoldStep | frontend/src/app/api/active/route.ts:52-65 | one `set` or `delete` keeps the map equal to "the last event wins" over the logs seen so far |
| Projection.Project | frontend/src/app/api/active/route.ts:41-69 | a listing is in the output exactly when its last event is a `Listed`, with that event's record, each id once |
| Projection.SerializeAsWritten | frontend/src/app/api/active/route.ts:71-76 | as written, a reply with rows fails to encode and becomes a 500 with the `BigInt` message; an empty list and an error reply go through unchanged |
| Projection.GetActive | frontend/src/app/api/active/route.ts:30-78 | as written: a failing provider call gives a 500 with its message; otherwise the answer is 200 (with no rows) exactly when no listing's last event is a `Listed`, and a 500 with the `BigInt` message when one is |
| Projection.GetActiveIntended | frontend/src/app/api/active/route.ts:30-78 | with amounts JSON can encode: a failing provider call gives a 500 with its message; otherwise 200 with the projection of the logs from the scan start |
| Projection.ListedLogMakesActive | frontend/src/app/api/active/route.ts:52-58 | one log that decodes to `Listed` makes a listing active |
| Query.Matches | frontend/src/app/api/indexer/active/route.ts:29-37 | a row matches exactly when it lies within the price bounds and has the filter's seller and collection, compared case-insensitively, whenever those are given; an empty filter matches every row |
| Query.Matching | frontend/src/app/api/indexer/active/route.ts:29-38 | keeps exactly the rows whose seller, collection (case-insensitive, empty means any) and price bounds match; distinct ids stay distinct |
| Query.Below | frontend/src/app/api/indexer/active/route.ts:47-49 | keeps exactly the rows whose id is below the cursor |
| Query.BelowKeepsOrder | frontend/src/app/api/indexer/active/route.ts:47-49 | the cut keeps a descending list descending |
| Query.Insert | frontend/src/app/api/indexer/active/route.ts:41-44 | inserting into a descending list keeps it descending and adds exactly that row |
| Query.InsertDistinct | frontend/src/app/api/indexer/active/route.ts:41-44 | inserting a row with a new id keeps ids distinct |
| Query.SortDesc | frontend/src/app/api/indexer/active/route.ts:41-44 | the result is a permutation of the rows, in descending id order |
| Query.SortStrict | frontend/src/app/api/indexer/active/route.ts:41-44 | rows with distinct ids sort into strictly descending ids |
| Query.Candidates | frontend/src/app/api/indexer/active/route.ts:28-49 | the rows paged through are in descending id order, strictly so when ids are distinct |
| Query.CandidatesMembers | frontend/src/app/api/indexer/active/route.ts:28-49 | the rows paged through are exactly the stored rows that match and lie below the cursor |
| Query.PageOf | frontend/src/app/api/indexer/active/route.ts:51-52 | the page is the first `limit` rows; a cursor comes back exactly when at least `limit` rows were available, and it is the id of the page's last row |
| Query.Limit | frontend/src/app/api/indexer/active/route.ts:20 | the page size lies in 1..60, is 24 when the parameter is absent or not a number, and is the parameter rounded down when that is in range |
| Query.Answer | frontend/src/app/api/indexer/active/route.ts:51-52 | the page is a prefix of the candidates of size `min(limit, candidates)`, with a cursor exactly when it is full |
| Query.AnswerSound | frontend/src/app/api/indexer/active/route.ts:28-52 | every row on the page is stored, matches the filter, lies below the cursor, and ids descend |
| Query.AnswerComplete | frontend/src/app/api/indexer/active/route.ts:41-52 | a matching row below the cursor that is not on the page comes after it: the page is full and the row's id is at most the next cursor |
| Query.GetIndexed | frontend/src/app/api/indexer/active/route.ts:14-58 | the rows read are exactly the tracked ids with a readable record, each once, and the page is `Query.Answer` over them: at most `limit` rows, strictly descending, each tracked with its record, matching and below the cursor; the cursor, present exactly on a full page, is the last row's id; no tracked matching listing below the cursor is skipped |
| Query.NextShrinks | frontend/src/app/api/indexer/active/route.ts:46-52 | after a full page, the next cursor leaves fewer candidates, namely those after the page |
| Query.BelowBelow | frontend/src/app/api/indexer/active/route.ts:47-49 | cutting at a later cursor after an earlier one is cutting at the later one |
| Query.BelowAt | frontend/src/app/api/indexer/active/route.ts:47-49 | in a strictly descending list, cutting at the k-th row's id leaves the rows after it |
| Query.BelowShrinks | frontend/src/app/api/indexer/active/route.ts:47-49 | a cursor at or below some row's id removes at least that row |
| Query.LastPage | frontend/src/app/api/indexer/active/route.ts:51-52 | a page without a cursor holds every remaining candidate |
| Query.PagesStep | frontend/src/app/api/indexer/active/route.ts:46-52 | a full page followed by the pages after its cursor |
| Query.PagesCoverCandidates | frontend/src/app/api/indexer/active/route.ts:46-52 | following `nextCursor` from any page visits every remaining candidate exactly once, newest first |
| Query.AsWrittenLimit | frontend/src/app/api/indexer/active/route.ts:20 | as written, the page size is NaN exactly for a non-numeric parameter; an absent parameter gives 24; a number in [1, 60] is kept as it is, fraction included; above 60 or +Infinity gives 60, below 1 or -Infinity gives 1 |
| Query.PageAsWritten | frontend/src/app/api/indexer/active/route.ts:51-52 | as written, the page is the first `min(floor(limit), n)` rows, and none for NaN; a cursor comes back exactly when the row count equals the (possibly fractional) limit, and it is the last row's id |
| Query.AsWrittenAgrees | frontend/src/app/api/indexer/active/route.ts:20-52 | for an absent, infinite or whole-number limit, the page as written is the intended page |
| Query.FractionalLimitStopsEarly | frontend/src/app/api/indexer/active/route.ts:20-52 | with `limit=2.5` and three candidates, the page as written has two rows and no cursor; the intended page has a cursor |
| Query.NaNLimitEmptiesPage | frontend/src/app/api/indexer/active/route.ts:20-52 | with a non-numeric limit the page as written is empty; the intended page is not |
| Admin.ClearedKeysShape | frontend/src/app/api/indexer/admin/clear/route.ts:8-15 | the cursor key is deleted; the set and each member's record are deleted exactly when the set is non-empty, so an empty or missing set deletes only the cursor; no other key is deleted; all of them start with `i` |
| Admin.Cleared | frontend/src/app/api/indexer/admin/clear/route.ts:8-15 | afterwards there is no cursor, no set member and no record for a former member; every other key keeps its value |
| Admin.ClearIdempotent | frontend/src/app/api/indexer/admin/clear/route.ts:8-15 | clearing twice is clearing once |
| Admin.ClearAll | frontend/src/app/api/indexer/admin/clear/route.ts:7-17 | always answers ok; the store afterwards is the cleared store |
| Admin.NamespacedKeysStart | frontend/src/lib/indexer/storage.ts:21-24 | every namespaced key begins with its namespace's first character |
| Admin.ClearKeepsNamespacedState | frontend/src/app/api/indexer/admin/clear/route.ts:8-15 | for a namespace not starting with `i`, the indexer's set, records, cursor and lock are unchanged by the clear |
| Admin.ClearKeepsChainState | frontend/src/app/api/indexer/admin/clear/route.ts:8-15 | for a namespace whose chain id starts with a digit, the indexer's set, records, cursor and lock are unchanged by the clear |
| Admin.DefaultNamespaceStart | frontend/src/lib/indexer/storage.ts:16-19 | the default namespace starts with the digit `1` of chain id 11155111 |
| Admin.ClearedInViews | frontend/src/app/api/indexer/admin/clear/route.ts:8-15 | a namespaced clear leaves an empty set, cursor 0, no record for a tracked id, untracked records and the lock as they were |
| Admin.ClearNamespaced | frontend/src/app/api/indexer/admin/clear/route.ts:7-17 | on the namespaced keys: answers ok, empties the set, resets the cursor, deletes every tracked record, keeps the lock |

## Left out

- Sync.RunSync: requires the provider to accept every window of at most 10 blocks. This is a simple sufficient condition for termination, not a necessary one: the source may retry forever only when a 10-block window (or one cut short at the safe tip) keeps being refused, while a provider that refuses 6 blocks and accepts the 10-block retry is excluded here although the source finishes on it.
- Sync.RunSync: the `rpc` host field of the result is a constant string and is not modelled. `scanned` is a JavaScript number; here it is a natural number.
- Events.Classify: a `Listed` event with a missing or mistyped argument is ignored. The source would store a partial record, or use the key `undefined`. The ABI decoder (`decodeEventLog`) is external code and is a parameter.
- Projection.Project: the same simplification as `Events.Classify`. The source's map keys are `String(listingId)`; here they are the ids, which is equivalent because decimal strings are injective.
- Storage.GetLastBlock: a cursor value that is not a decimal number reads as 0. The source's `BigInt` would throw. Only the indexer writes that key, and it writes decimal text.
- Storage.AcquireLock: the lock's 60-second expiry is not modelled, so a lock left behind by a crashed run stays held. Several processes syncing at once are not modelled; every run here is sequential.
- Kv.Redis.SAdd: adding to a key that holds a non-set value replaces that value. Redis answers with a type error instead. The indexer never stores anything but a set under its set key.
- Store and network failures (transport errors, a pipeline that fails halfway) are not modelled. Pipelined commands run one after another. Such errors are swallowed by the per-log `try` in `runSync` and bubble up in the routes.
- JSON encoding of records is left out. A `Record` value stands for text that parses back to the listing, and a `Text` value for text that does not. `readAllActive` skips the latter, as the source's `try` does.
- Admin.ClearAll: assumes that the clear route's client (`kv` from `@vercel/kv`) and the storage layer's client (`Redis.fromEnv()` from `@upstash/redis`) reach the same store. The two are built from different environment settings; if they reach different stores, the clear touches none of the indexer's keys at all. The finding about the clear route holds either way.
- Query.Answer: uses the corrected page size `Query.Limit`. The page as the route computes it is `Query.PageAsWritten`, and `Query.AsWrittenAgrees` shows the two agree for an absent, infinite or whole-number limit. See the findings.
- Query.GetIndexed: answers with `Query.Answer`, so it has the corrected page size too; for a fractional or non-numeric `limit` it does not give the route's page.
- Query.Pages: is built on `Query.Answer`, so paging is proved for the corrected page size only.
- Admin.ClearKeepsNamespacedState: requires a namespace that does not start with `i`. A configured chain id may start with `i`, and then the clear can hit the indexer's keys; `Admin.ClearKeepsChainState` covers chain ids that start with a digit.
- Query.Matching: parsing of `minEth`/`maxEth` (`parseEther`) and of `cursor` (`BigInt`) is left out. The parameters arrive already converted, and a malformed one, which makes the source answer with an error, is not modelled. Lowercasing covers ASCII letters only.
- The `Cache-Control` header of `GET /api/indexer/active` and the HTTP framing of every route are not modelled.
- The reindex, status and sync routes are not modelled. The reindex route writes the un-namespaced `idx:lastBlock`, so it does not rewind the cursor that `runSync` reads. The React components and the contract deployment scripts are not part of this model.

## Findings

| source | as written | input that shows it | evidently intended | confidence | as-written member | corrected member |
|---|---|---|---|---|---|---|
| frontend/src/lib/indexer/sync.ts:144 | after a "range too large" error, any span above 10 is halved, so spans of 11 to 19 drop to 5 to 9, and a span at or below 10 is raised to 10 | default span 100 and a provider that refuses five times: 50, 25, 12, 6, then 10 | halve, but keep the 10-block floor that lines 115 and 192 enforce; the loop in this model (`Sync.ScanWindow`) follows the code | low, not executed | Sync.DefaultSpanDipsToSix | Sync.Shrink |
| frontend/src/app/api/active/route.ts:71-76 | the rows carry `tokenId` and `price` as `bigint` (line 13), which `JSON.stringify` rejects, so the route's `catch` answers 500 | any chain range with one `Listed` log not followed by a `Canceled` or `Purchased`: status 500 with "Do not know how to serialize a BigInt" | encode the amounts as decimal text, as the storage layer does, and answer 200 with the rows | high, not executed | Projection.GetActive | Projection.GetActiveIntended |
| frontend/src/app/api/indexer/active/route.ts:20 | a fractional `limit` is kept; the slice rounds it down, but the "page is full" test compares the row count with the fraction | `limit=2.5` with three matching listings: two rows and `nextCursor: null`, so the third listing is never paged to | a whole-number page size, so a full page always carries a cursor | medium, not executed | Query.FractionalLimitStopsEarly | Query.Limit |
| frontend/src/app/api/indexer/active/route.ts:51 | a non-numeric `limit` gives NaN, and `slice(0, NaN)` is empty | `limit=abc` with any matching listings: an empty page and no cursor | fall back to the default page size of 24 | medium, not executed | Query.NaNLimitEmptiesPage | Query.Limit |
| frontend/src/app/api/indexer/admin/clear/route.ts:8-15 | the route deletes `idx:activeIds`, `idx:listing:<id>` and `idx:lastBlock`, which carry no namespace | any store in which the indexer tracks a listing under `11155111:<market>:idx:…`: after the clear it is still tracked and the cursor is unchanged | clear the namespaced keys that the storage layer uses | high, not executed | Admin.ClearKeepsNamespacedState | Admin.ClearNamespaced |

=== FILE: admin.dfy ===
/**
 * The admin clear route (`POST /api/indexer/admin/clear`). It deletes the
 * record of every id in the active-id set, the set itself and the cursor,
 * under the keys `idx:activeIds`, `idx:listing:<id>` and `idx:lastBlock`,
 * which carry no chain/marketplace namespace.
 */
module Admin {
  import opened Wrappers
  import opened Strings
  import opened Kv
  import opened Storage

  const LegacyIdsKey: string := "idx:activeIds"
  const LegacyLastKey: string := "idx:lastBlock"

  function LegacyListingKey(id: nat): string { "idx:listing:" + Decimal(id) }

  /** The keys the route deletes from store `m`. */
  function ClearedKeys(m: map<string, Value>): set<string> {
    var ids := MembersOf(m, LegacyIdsKey);
    var records := set id | id in ids :: LegacyListingKey(id);
    {LegacyLastKey} + if ids != {} then {LegacyIdsKey} + records else {}
  }

  /**
   * The route deletes the cursor key always, the set key and each member's
   * record key exactly when the set is non-empty, nothing else, and every
   * key it deletes starts with `i`.
   */
  lemma ClearedKeysShape(m: map<string, Value>)
    ensures LegacyLastKey in ClearedKeys(m)
    ensures LegacyIdsKey in ClearedKeys(m) <==> MembersOf(m, LegacyIdsKey) != {}
    ensures forall id :: id in MembersOf(m, LegacyIdsKey) ==> LegacyListingKey(id) in ClearedKeys(m)
    ensures forall k :: k in ClearedKeys(m) ==> |k| > 0 && k[0] == 'i'
    ensures MembersOf(m, LegacyIdsKey) == {} ==> ClearedKeys(m) == {LegacyLastKey}
    ensures forall k :: k in ClearedKeys(m) ==>
              k == LegacyLastKey || k == LegacyIdsKey ||
              exists id :: id in MembersOf(m, LegacyIdsKey) && k == LegacyListingKey(id)
  {
  }

  /** The store after the route. */
  function Cleared(m: map<string, Value>): (r: map<string, Value>)
    ensures r.Keys <= m.Keys
    ensures LegacyLastKey !in r
    ensures MembersOf(r, LegacyIdsKey) == {}
    ensures forall id :: id in MembersOf(m, LegacyIdsKey) ==> LegacyListingKey(id) !in r
    ensures forall k :: k in m && k !in ClearedKeys(m) ==> k in r && r[k] == m[k]
  {
    ClearedKeysShape(m);
    m - ClearedKeys(m)
  }

  /** Clearing twice is clearing once. */
  lemma ClearIdempotent(m: map<string, Value>)
    ensures Cleared(Cleared(m)) == Cleared(m)
  {
    var r := Cleared(m);
    assert ClearedKeys(r) == {LegacyLastKey};
  }

  /**
   * `POST`: when the set holds ids, delete each record and the set; then
   * delete the cursor; answer `{ ok: true }`.
   */
  method ClearAll(db: Redis) returns (ok: bool)
    modifies db
    ensures ok
    ensures db.data == Cleared(old(db.data))
  {
    ghost var m := db.data;
    ghost var gone: set<string> := {};
    var ids := db.SMembers(LegacyIdsKey);
    if |ids| > 0 {
      for i := 0 to |ids|
        invariant gone == set j | 0 <= j < i :: LegacyListingKey(ids[j])
        invariant db.data == m - gone
      {
        db.Del(LegacyListingKey(ids[i]));
        DeleteMore(m, gone, LegacyListingKey(ids[i]));
        gone := gone + {LegacyListingKey(ids[i])};
      }
      assert gone == set id | id in MembersOf(m, LegacyIdsKey) :: LegacyListingKey(id) by {
        forall id | id in MembersOf(m, LegacyIdsKey) ensures LegacyListingKey(id) in gone {
          var j :| 0 <= j < |ids| && ids[j] == id;
        }
      }
      db.Del(LegacyIdsKey);
      DeleteMore(m, gone, LegacyIdsKey);
      gone := gone + {LegacyIdsKey};
    } else {
      assert MembersOf(m, LegacyIdsKey) == {} by {
        assert forall x :: x !in MembersOf(m, LegacyIdsKey);
      }
    }
    db.Del(LegacyLastKey);
    DeleteMore(m, gone, LegacyLastKey);
    gone := gone + {LegacyLastKey};
    assert gone == ClearedKeys(m);
    return true;
  }

  /** Every namespaced key starts with the first character of its namespace. */
  lemma NamespacedKeysStart(ns: string, id: nat)
    requires ns != []
    ensures IdsKey(ns)[0] == LastKey(ns)[0] == LockKey(ns)[0] == ListingKey(ns, id)[0] == ns[0]
  {
  }

  /**
   * The route leaves the indexer's state alone: for a namespace that does
   * not start with `i` (one led by a numeric chain id, as every namespace is
   * by default) the id set, each record, the cursor and the lock read the
   * same before and after.
   */
  lemma ClearKeepsNamespacedState(m: map<string, Value>, ns: string, id: nat)
    requires ns != [] && ns[0] != 'i'
    ensures IdsOf(Cleared(m), ns) == IdsOf(m, ns)
    ensures RecordAt(Cleared(m), ns, id) == RecordAt(m, ns, id)
    ensures CursorOf(Cleared(m), ns) == CursorOf(m, ns)
    ensures LockHeld(Cleared(m), ns) == LockHeld(m, ns)
  {
    NamespacedKeysStart(ns, id);
    ClearedKeysShape(m);
  }

  /** The default namespace starts with a digit of the chain id. */
  lemma DefaultNamespaceStart(market: Option<string>)
    ensures Namespace(None, market) != [] && Namespace(None, market)[0] == '1'
  {
    assert Namespace(None, market) == DefaultChainId + ":" + Lower(market.GetOr(""));
  }

  /**
   * The route leaves the indexer's state alone for every namespace whose chain
   * id starts with a digit, the unset chain id included.
   */
  lemma ClearKeepsChainState(m: map<string, Value>, chain: Option<string>, market: Option<string>, id: nat)
    requires IsDigit(ChainId(chain)[0])
    ensures var ns := Namespace(chain, market);
            && IdsOf(Cleared(m), ns) == IdsOf(m, ns)
            && RecordAt(Cleared(m), ns, id) == RecordAt(m, ns, id)
            && CursorOf(Cleared(m), ns) == CursorOf(m, ns)
            && LockHeld(Cleared(m), ns) == LockHeld(m, ns)
  {
    var ns := Namespace(chain, market);
    assert ns[0] == ChainId(chain)[0];
    ClearKeepsNamespacedState(m, ns, id);
  }

  // ---- Clearing the namespaced state ----

  /** The keys a namespaced clear deletes: the tracked records, the set and the cursor. */
  function ClearedKeysIn(m: map<string, Value>, ns: string): set<string> {
    var ids := IdsOf(m, ns);
    {LastKey(ns)} + if ids != {} then {IdsKey(ns)} + (set id | id in ids :: ListingKey(ns, id)) else {}
  }

  function ClearedIn(m: map<string, Value>, ns: string): map<string, Value> {
    m - ClearedKeysIn(m, ns)
  }

  /**
   * After a namespaced clear the set is empty, the cursor reads 0, no
   * tracked id has a record, untracked records and the lock are kept.
   */
  lemma ClearedInViews(m: map<string, Value>, ns: string, id: nat)
    ensures IdsOf(ClearedIn(m, ns), ns) == {}
    ensures CursorOf(ClearedIn(m, ns), ns) == 0
    ensures RecordAt(ClearedIn(m, ns), ns, id) == if id in IdsOf(m, ns) then None else RecordAt(m, ns, id)
    ensures LockHeld(ClearedIn(m, ns), ns) == LockHeld(m, ns)
  {
    KeysDistinct(ns, id, id);
    if id !in IdsOf(m, ns) {
      forall x | x in IdsOf(m, ns) ensures ListingKey(ns, x) != ListingKey(ns, id) {
        KeysDistinct(ns, x, id);
      }
    }
    forall x | x in IdsOf(m, ns) ensures ListingKey(ns, x) != LockKey(ns) {
      KeysDistinct(ns, x, x);
    }
  }

  /** The clear route on the namespaced keys the indexer reads and writes. */
  method ClearNamespaced(db: Redis, ns: string) returns (ok: bool)
    modifies db
    ensures ok
    ensures db.data == ClearedIn(old(db.data), ns)
    ensures IdsOf(db.data, ns) == {} && CursorOf(db.data, ns) == 0
    ensures forall id :: id in IdsOf(old(db.data), ns) ==> RecordAt(db.data, ns, id) == None
    ensures LockHeld(db.data, ns) == LockHeld(old(db.data), ns)
  {
    ghost var m := db.data;
    ghost var gone: set<string> := {};
    var ids := db.SMembers(IdsKey(ns));
    if |ids| > 0 {
      for i := 0 to |ids|
        invariant gone == set j | 0 <= j < i :: ListingKey(ns, ids[j])
        invariant db.data == m - gone
      {
        db.Del(ListingKey(ns, ids[i]));
        DeleteMore(m, gone, ListingKey(ns, ids[i]));
        gone := gone + {ListingKey(ns, ids[i])};
      }
      assert gone == set id | id in IdsOf(m, ns) :: ListingKey(ns, id) by {
        forall id | id in IdsOf(m, ns) ensures ListingKey(ns, id) in gone {
          var j :| 0 <= j < |ids| && ids[j] == id;
        }
      }
      db.Del(IdsKey(ns));
      DeleteMore(m, gone, IdsKey(ns));
      gone := gone + {IdsKey(ns)};
    } else {
      assert IdsOf(m, ns) == {} by {
        assert forall x :: x !in IdsOf(m, ns);
      }
    }
    db.Del(LastKey(ns));
    DeleteMore(m, gone, LastKey(ns));
    gone := gone + {LastKey(ns)};
    assert gone == ClearedKeysIn(m, ns);
    forall id | id in IdsOf(m, ns) ensures RecordAt(db.data, ns, id) == None {
      ClearedInViews(m, ns, id);
    }
    ClearedInViews(m, ns, 0);
    return true;
  }
}

=== FILE: events.dfy ===
/**
 * The marketplace's event vocabulary as the indexer sees it: raw logs, what
 * the ABI decoder returns for them, the tolerant argument lookup (`pick`),
 * and the classification into `Listed` / `Canceled` / `Purchased` /
 * unrecognised. Also the specification of the projection: the state of one
 * listing after a run of events is decided by the last event about it.
 */
module Events {
  import opened Wrappers

  /** One active listing (`ActiveItemKV`); token id and price are unsigned integers. */
  datatype Listing = Listing(nft: string, tokenId: nat, seller: string, price: nat)

  /** A listing together with its id, as served to callers (`{ id, ...item }`). */
  datatype Row = Row(id: nat, item: Listing)

  /** No element occurs twice. */
  predicate Distinct<T(==)>(s: seq<T>) {
    forall i, j :: 0 <= i < j < |s| ==> s[i] != s[j]
  }

  /** No two rows carry the same id. */
  predicate DistinctIds(rows: seq<Row>) {
    forall i, j :: 0 <= i < j < |rows| ==> rows[i].id != rows[j].id
  }

  /** Some row carries `id`. */
  predicate HasId(rows: seq<Row>, id: nat) {
    exists k :: 0 <= k < |rows| && rows[k].id == id
  }

  /** A raw log entry: optional topic list and hex data. */
  datatype Log = Log(topics: Option<seq<string>>, data: string)

  /** A decoded argument value: an unsigned integer or an address. */
  datatype Arg = Num(n: nat) | Addr(a: string)

  /** The decoder hands back arguments either positionally or by name. */
  datatype Args = Positional(items: seq<Arg>) | Named(fields: map<string, Arg>)

  /** The result of the ABI decoder: an event name with arguments, or a thrown error. */
  datatype Decoded = Decoded(eventName: string, args: Args) | DecodeError

  /** The ABI decoder (`decodeEventLog` with the marketplace ABI, non-strict), abstracted. */
  type Decoder = (seq<string>, string) -> Decoded

  datatype MarketEvent =
    | Listed(id: nat, item: Listing)
    | Canceled(id: nat)
    | Purchased(id: nat)
    | Unrecognized

  /** `toTopics`: a missing or empty topic list becomes `[]`, anything else is kept. */
  function ToTopics(topics: Option<seq<string>>): (r: seq<string>)
    ensures r == [] <==> topics.None? || topics.value == []
    ensures topics.Some? ==> r == topics.value
  {
    match topics
    case None => []
    case Some(t) => if |t| == 0 then [] else [t[0]] + t[1..]
  }

  /** `pick(args, key, idx)`: positional lookup for tuples, lookup by name otherwise. */
  function Pick(args: Args, key: string, idx: nat): Option<Arg> {
    match args
    case Positional(items) => if idx < |items| then Some(items[idx]) else None
    case Named(fields) => if key in fields then Some(fields[key]) else None
  }

  /** The argument names of `Listed`, in ABI order. */
  const ListedNames: seq<string> := ["listingId", "nft", "tokenId", "seller", "price"]

  /** A named and a positional encoding of the same arguments. */
  ghost predicate SameArgs(named: map<string, Arg>, items: seq<Arg>, names: seq<string>) {
    |items| == |names| && forall i :: 0 <= i < |names| ==> names[i] in named && named[names[i]] == items[i]
  }

  /** Both encodings of one event give the same value for every argument `pick` asks for. */
  lemma PickAgrees(named: map<string, Arg>, items: seq<Arg>, names: seq<string>, i: nat)
    requires SameArgs(named, items, names) && i < |names|
    ensures Pick(Named(named), names[i], i) == Pick(Positional(items), names[i], i) == Some(items[i])
  {
  }

  /** The typed event behind a decoder result; an event with a missing or mistyped argument is `Unrecognized`. */
  function Classify(d: Decoded): (e: MarketEvent)
    ensures d.DecodeError? ==> e == Unrecognized
    ensures e.Listed? ==>
              d.Decoded? && d.eventName == "Listed" &&
              Pick(d.args, "listingId", 0) == Some(Num(e.id)) &&
              Pick(d.args, "nft", 1) == Some(Addr(e.item.nft)) &&
              Pick(d.args, "tokenId", 2) == Some(Num(e.item.tokenId)) &&
              Pick(d.args, "seller", 3) == Some(Addr(e.item.seller)) &&
              Pick(d.args, "price", 4) == Some(Num(e.item.price))
    ensures e.Canceled? ==> d.Decoded? && d.eventName == "Canceled" && Pick(d.args, "listingId", 0) == Some(Num(e.id))
    ensures e.Purchased? ==> d.Decoded? && d.eventName == "Purchased" && Pick(d.args, "listingId", 0) == Some(Num(e.id))
    ensures d.Decoded? && d.eventName !in {"Listed", "Canceled", "Purchased"} ==> e == Unrecognized
    ensures forall id, nft, tokenId, seller, price ::
              d.Decoded? && d.eventName == "Listed" &&
              Pick(d.args, "listingId", 0) == Some(Num(id)) &&
              Pick(d.args, "nft", 1) == Some(Addr(nft)) &&
              Pick(d.args, "tokenId", 2) == Some(Num(tokenId)) &&
              Pick(d.args, "seller", 3) == Some(Addr(seller)) &&
              Pick(d.args, "price", 4) == Some(Num(price)) ==>
                e == Listed(id, Listing(nft, tokenId, seller, price))
    ensures forall id :: d.Decoded? && d.eventName == "Canceled" && Pick(d.args, "listingId", 0) == Some(Num(id)) ==>
              e == Canceled(id)
    ensures forall id :: d.Decoded? && d.eventName == "Purchased" && Pick(d.args, "listingId", 0) == Some(Num(id)) ==>
              e == Purchased(id)
  {
    match d
    case DecodeError => Unrecognized
    case Decoded(name, args) =>
      if name == "Listed" then
        match (Pick(args, "listingId", 0), Pick(args, "nft", 1), Pick(args, "tokenId", 2),
               Pick(args, "seller", 3), Pick(args, "price", 4))
        case (Some(Num(id)), Some(Addr(nft)), Some(Num(tokenId)), Some(Addr(seller)), Some(Num(price))) =>
          Listed(id, Listing(nft, tokenId, seller, price))
        case _ => Unrecognized
      else if name == "Canceled" || name == "Purchased" then
        match Pick(args, "listingId", 0)
        case Some(Num(id)) => if name == "Canceled" then Canceled(id) else Purchased(id)
        case _ => Unrecognized
      else Unrecognized
  }

  /** Classification does not depend on which of the two argument encodings the decoder used. */
  lemma {:induction false} ClassifyEncodingIndependent(name: string, named: map<string, Arg>, items: seq<Arg>)
    requires SameArgs(named, items, ListedNames)
    ensures Classify(Decoded(name, Named(named))) == Classify(Decoded(name, Positional(items)))
  {
    forall i | 0 <= i < |ListedNames|
      ensures Pick(Named(named), ListedNames[i], i) == Pick(Positional(items), ListedNames[i], i)
    {
      PickAgrees(named, items, ListedNames, i);
    }
    assert ListedNames[0] == "listingId" && ListedNames[1] == "nft" && ListedNames[2] == "tokenId";
    assert ListedNames[3] == "seller" && ListedNames[4] == "price";
  }

  /** The event a log stands for: decode with the normalised topics, then classify. */
  function EventOf(log: Log, decode: Decoder): MarketEvent {
    Classify(decode(ToTopics(log.topics), log.data))
  }

  /** The events of a batch of logs, in log order. */
  function EventsOf(logs: seq<Log>, decode: Decoder): (es: seq<MarketEvent>)
    ensures |es| == |logs|
    ensures forall i :: 0 <= i < |logs| ==> es[i] == EventOf(logs[i], decode)
  {
    if logs == [] then [] else EventsOf(logs[..|logs| - 1], decode) + [EventOf(logs[|logs| - 1], decode)]
  }

  /** One more log adds its event at the end. */
  lemma EventsOfPrefix(logs: seq<Log>, i: nat, decode: Decoder)
    requires i < |logs|
    ensures EventsOf(logs[..i + 1], decode) == EventsOf(logs[..i], decode) + [EventOf(logs[i], decode)]
  {
    assert logs[..i + 1][..i] == logs[..i];
  }

  /** The event concerns listing `id` (an unrecognised event concerns none). */
  predicate About(e: MarketEvent, id: nat) {
    !e.Unrecognized? && e.id == id
  }

  /** The last event of `es` about listing `id`, if any. */
  function LastFor(es: seq<MarketEvent>, id: nat): (r: Option<MarketEvent>)
    ensures r.Some? ==> About(r.value, id) &&
                        exists i :: 0 <= i < |es| && es[i] == r.value && forall j :: i < j < |es| ==> !About(es[j], id)
    ensures r.None? ==> forall i :: 0 <= i < |es| ==> !About(es[i], id)
  {
    if es == [] then None
    else if About(es[|es| - 1], id) then Some(es[|es| - 1])
    else LastFor(es[..|es| - 1], id)
  }

  /**
   * The record of listing `id` after `es`, starting from `prior`: the last
   * `Listed` event's record if the last event about `id` is a `Listed`,
   * nothing if it is a `Canceled` or `Purchased`, `prior` if there is none.
   */
  function Expected(prior: Option<Listing>, es: seq<MarketEvent>, id: nat): Option<Listing> {
    match LastFor(es, id)
    case None => prior
    case Some(e) => if e.Listed? then Some(e.item) else None
  }

  /** Whether listing `id` is tracked after `es`, starting from `prior`. */
  function ActiveAfter(prior: bool, es: seq<MarketEvent>, id: nat): bool {
    match LastFor(es, id)
    case None => prior
    case Some(e) => e.Listed?
  }

  /** The last event about `id` in `a + b` is the last one in `b`, or else the last one in `a`. */
  lemma {:induction false} LastForAppend(a: seq<MarketEvent>, b: seq<MarketEvent>, id: nat)
    ensures LastFor(a + b, id) == if LastFor(b, id).Some? then LastFor(b, id) else LastFor(a, id)
    decreases |b|
  {
    if b != [] {
      assert (a + b)[..|a + b| - 1] == a + b[..|b| - 1];
      LastForAppend(a, b[..|b| - 1], id);
    } else {
      assert a + b == a;
    }
  }

  /** Applying `a` then `b` nets out the same as applying `a + b`. */
  lemma ExpectedAppend(prior: Option<Listing>, member: bool, a: seq<MarketEvent>, b: seq<MarketEvent>, id: nat)
    ensures Expected(Expected(prior, a, id), b, id) == Expected(prior, a + b, id)
    ensures ActiveAfter(ActiveAfter(member, a, id), b, id) == ActiveAfter(member, a + b, id)
  {
    LastForAppend(a, b, id);
  }

  /** One more event: only an event about `id` changes what is expected of `id`. */
  lemma ExpectedStep(prior: Option<Listing>, member: bool, es: seq<MarketEvent>, e: MarketEvent, id: nat)
    ensures Expected(prior, es + [e], id) ==
              if !About(e, id) then Expected(prior, es, id)
              else if e.Listed? then Some(e.item) else None
    ensures ActiveAfter(member, es + [e], id) ==
              if !About(e, id) then ActiveAfter(member, es, id) else e.Listed?
  {
    assert (es + [e])[..|es|] == es;
  }

  /** Starting from nothing, a listing is present exactly when its last event is a `Listed`. */
  lemma ExpectedFromNothing(es: seq<MarketEvent>, id: nat)
    ensures Expected(None, es, id).Some? <==> LastFor(es, id).Some? && LastFor(es, id).value.Listed?
    ensures ActiveAfter(false, es, id) == Expected(None, es, id).Some?
  {
  }
}

=== FILE: ipfs.dfy ===
/** Rewriting of `ipfs://` URIs to the public HTTP gateway (`toHttp`). */
module Ipfs {
  import opened Wrappers
  import opened Strings

  const Scheme: string := "ipfs://"
  const Gateway: string := "https://ipfs.io/ipfs/"

  /** `toHttp(url?)`: empty for a missing URL, gateway URL for `ipfs://<cid>`, anything else as it is. */
  function ToHttp(url: Option<string>): (r: string)
    ensures url.None? || url.value == "" ==> r == ""
    ensures url.Some? && StartsWith(url.value, Scheme) ==> r == Gateway + url.value[|Scheme|..]
    ensures url.Some? && url.value != "" && !StartsWith(url.value, Scheme) ==> r == url.value
  {
    if url.None? || url.value == "" then ""
    else if StartsWith(url.value, Scheme) then
      StripPrefix(url.value, Scheme);
      Gateway + ReplaceFirst(url.value, Scheme, "")
    else url.value
  }

  /** A gateway URL is never itself an `ipfs://` URI. */
  lemma GatewayIsNotIpfs(rest: string)
    ensures !StartsWith(Gateway + rest, Scheme)
  {
    assert (Gateway + rest)[0] == 'h';
  }

  /** Rewriting an already rewritten URL changes nothing. */
  lemma {:induction false} ToHttpIdempotent(url: Option<string>)
    ensures ToHttp(Some(ToHttp(url))) == ToHttp(url)
  {
    if url.Some? && url.value != "" && StartsWith(url.value, Scheme) {
      GatewayIsNotIpfs(url.value[|Scheme|..]);
    }
  }
}

=== FILE: kv.dfy ===
/**
 * The key/value backend: one map from key to value, with the handful of
 * Redis commands the source issues. The storage layer and the admin routes
 * use two different clients; the model takes them to reach this one store.
 * Transport, expiry and pipelining are not modelled; a pipeline's commands
 * run one after another.
 */
module Kv {
  import opened Wrappers
  import opened Events

  /**
   * A stored value. `Record` is the JSON text of a listing that parses back
   * to `item`; `Text` is any other string (the lock's "1", or a record that
   * does not parse); `Height` is the decimal text of a block number.
   */
  datatype Value = Text(s: string) | Height(block: nat) | Members(ids: set<nat>) | Record(item: Listing)

  function Lookup(m: map<string, Value>, k: string): Option<Value> {
    if k in m then Some(m[k]) else None
  }

  /** The members of the set stored under `k`; none when `k` is absent or holds no set. */
  function MembersOf(m: map<string, Value>, k: string): set<nat> {
    if k in m && m[k].Members? then m[k].ids else {}
  }

  /** `SADD k x`. */
  function AddMember(m: map<string, Value>, k: string, x: nat): (r: map<string, Value>)
    ensures MembersOf(r, k) == MembersOf(m, k) + {x}
    ensures r.Keys == m.Keys + {k}
    ensures forall j :: j in m && j != k ==> r[j] == m[j]
  {
    m[k := Members(MembersOf(m, k) + {x})]
  }

  /** `SREM k x`; like Redis, a set left empty disappears. */
  function RemoveMember(m: map<string, Value>, k: string, x: nat): (r: map<string, Value>)
    ensures MembersOf(r, k) == MembersOf(m, k) - {x}
    ensures r.Keys <= m.Keys
    ensures forall j :: j in m && j != k ==> j in r && r[j] == m[j]
  {
    if k in m && m[k].Members? then
      var rest := m[k].ids - {x};
      if rest == {} then m - {k} else m[k := Members(rest)]
    else m
  }

  /** Deleting keys one at a time is deleting them together. */
  lemma DeleteMore(m: map<string, Value>, gone: set<string>, k: string)
    ensures (m - gone) - {k} == m - (gone + {k})
  {
  }

  class Redis {
    var data: map<string, Value>

    constructor ()
      ensures data == map[]
    {
      data := map[];
    }

    /** `GET k`. */
    method Get(k: string) returns (v: Option<Value>)
      ensures v == Lookup(data, k)
    {
      v := if k in data then Some(data[k]) else None;
    }

    /** `MGET k1 k2 ...`. */
    method MGet(keys: seq<string>) returns (vals: seq<Option<Value>>)
      ensures |vals| == |keys|
      ensures forall i :: 0 <= i < |keys| ==> vals[i] == Lookup(data, keys[i])
    {
      vals := [];
      for i := 0 to |keys|
        invariant |vals| == i
        invariant forall j :: 0 <= j < i ==> vals[j] == Lookup(data, keys[j])
      {
        var v := Get(keys[i]);
        vals := vals + [v];
      }
    }

    /** `SET k v`. */
    method Set(k: string, v: Value)
      modifies this
      ensures data == old(data)[k := v]
    {
      data := data[k := v];
    }

    /** `SET k v NX`: writes only when `k` is absent and says whether it did. */
    method SetNx(k: string, v: Value) returns (ok: bool)
      modifies this
      ensures ok <==> k !in old(data)
      ensures data == if ok then old(data)[k := v] else old(data)
    {
      ok := k !in data;
      if ok {
        data := data[k := v];
      }
    }

    /** `DEL k`. */
    method Del(k: string)
      modifies this
      ensures data == old(data) - {k}
    {
      data := data - {k};
    }

    /** `SADD k x`. */
    method SAdd(k: string, x: nat)
      modifies this
      ensures data == AddMember(old(data), k, x)
    {
      data := AddMember(data, k, x);
    }

    /** `SREM k x`. */
    method SRem(k: string, x: nat)
      modifies this
      ensures data == RemoveMember(old(data), k, x)
    {
      data := RemoveMember(data, k, x);
    }

    /** `SMEMBERS k`: every member once, in an order the backend chooses. */
    method SMembers(k: string) returns (ids: seq<nat>)
      ensures forall x :: x in ids <==> x in MembersOf(data, k)
      ensures Distinct(ids)
      ensures |ids| == |MembersOf(data, k)|
    {
      var rest := MembersOf(data, k);
      ids := [];
      while rest != {}
        invariant rest <= MembersOf(data, k)
        invariant forall x :: x in ids <==> x in MembersOf(data, k) && x !in rest
        invariant Distinct(ids)
        invariant |ids| + |rest| == |MembersOf(data, k)|
        decreases |rest|
      {
        var x :| x in rest;
        ids := ids + [x];
        rest := rest - {x};
      }
    }
  }
}

=== FILE: middleware.dfy ===
/** The request middleware guarding the indexer's admin routes with a shared token. */
module Middleware {
  import opened Wrappers
  import opened Strings

  const AdminPrefix: string := "/api/indexer/admin/"

  datatype Decision = Next | Unauthorized

  /**
   * `middleware(req)`: `header` is the `x-indexer-token` request header and
   * `token` the configured `INDEXER_ADMIN_TOKEN` (absent or empty when unset).
   */
  function Guard(path: string, header: Option<string>, token: Option<string>): (d: Decision)
    ensures !StartsWith(path, AdminPrefix) ==> d == Next
    ensures StartsWith(path, AdminPrefix) && (token.None? || token.value == "") ==> d == Unauthorized
    ensures StartsWith(path, AdminPrefix) && token.Some? && header.None? ==> d == Unauthorized
    ensures StartsWith(path, AdminPrefix) ==>
              (d == Next <==> token.Some? && token.value != "" && header == Some(token.value))
  {
    if StartsWith(path, AdminPrefix) && (token.None? || token.value == "" || header != Some(token.value)) then
      Unauthorized
    else
      Next
  }
}

=== FILE: projection.dfy ===
/**
 * The stateless active-listings route (`GET /api/active`): read the last
 * 150,000 blocks of marketplace logs in one query and fold them into an
 * in-memory map of active listings.
 */
module Projection {
  import opened Wrappers
  import opened Events
  import opened Provider

  /** How far behind the latest block the scan starts. */
  const Window: nat := 150000

  /** `latest > 150000 ? latest - 150000 : 0`. */
  function ScanStart(latest: nat): (r: nat)
    ensures r <= latest && latest - r <= Window
    ensures latest > Window ==> latest - r == Window
    ensures r == 0 <==> latest <= Window
  {
    if latest > Window then latest - Window else 0
  }

  /** `s` without `x`; when `x` is absent nothing changes. */
  function Without(s: seq<nat>, x: nat): (r: seq<nat>)
    ensures forall y :: y in r <==> y in s && y != x
    ensures Distinct(s) ==> Distinct(r)
    ensures x !in s ==> r == s
  {
    if s == [] then []
    else if s[0] == x then Without(s[1..], x)
    else
      var rest := Without(s[1..], x);
      assert Distinct(s) ==> Distinct([s[0]] + rest) by {
        if Distinct(s) {
          assert forall k :: 0 <= k < |s[1..]| ==> s[1..][k] != s[0];
          assert s[0] !in rest;
          assert forall j :: 0 <= j < |rest| ==> ([s[0]] + rest)[j + 1] == rest[j] && rest[j] in rest;
        }
      }
      assert x !in s ==> [s[0]] + rest == s by {
        if x !in s {
          assert s == [s[0]] + s[1..];
        }
      }
      [s[0]] + rest
  }

  /** Putting the head back in front of the tail with position `i - 1` cut out is cutting position `i`. */
  lemma ConsSplice(s: seq<nat>, i: nat)
    requires 0 < i < |s|
    ensures [s[0]] + (s[1..][..i - 1] + s[1..][i..]) == s[..i] + s[i + 1..]
  {
    assert s[1..][..i - 1] == s[1..i] && s[1..][i..] == s[i + 1..];
    assert [s[0]] + s[1..i] == s[..i];
  }

  /** If `s[i]` occurs only at `i`, then in the tail it occurs only at `i - 1`. */
  lemma OnlyInTail(s: seq<nat>, i: nat)
    requires 0 < i < |s| && forall k :: 0 <= k < |s| && k != i ==> s[k] != s[i]
    ensures s[1..][i - 1] == s[i] && forall k :: 0 <= k < |s[1..]| && k != i - 1 ==> s[1..][k] != s[i]
  {
    assert forall k :: 0 <= k < |s[1..]| ==> s[1..][k] == s[k + 1];
  }

  /** Removing a key that occurs only at position `i` cuts out exactly that position: the others keep their order. */
  lemma {:induction false} WithoutCutsOut(s: seq<nat>, i: nat)
    requires i < |s| && forall k :: 0 <= k < |s| && k != i ==> s[k] != s[i]
    ensures Without(s, s[i]) == s[..i] + s[i + 1..]
    decreases i
  {
    if i == 0 {
      assert s[0] !in s[1..] by {
        assert forall k :: 0 <= k < |s[1..]| ==> s[1..][k] == s[k + 1];
      }
      assert s[..0] + s[1..] == s[1..];
    } else {
      OnlyInTail(s, i);
      WithoutCutsOut(s[1..], i - 1);
      ConsSplice(s, i);
    }
  }

  /** The rows for `order`, each carrying its key as `id`. */
  function EntryRows(order: seq<nat>, entries: map<nat, Listing>): (rows: seq<Row>)
    requires forall x :: x in order ==> x in entries
    ensures |rows| == |order|
    ensures forall k :: 0 <= k < |order| ==> rows[k] == Row(order[k], entries[order[k]])
  {
    if order == [] then [] else [Row(order[0], entries[order[0]])] + EntryRows(order[1..], entries)
  }

  /** A JavaScript `Map` from listing id to listing: its entries and their insertion order. */
  datatype ActiveMap = ActiveMap(order: seq<nat>, entries: map<nat, Listing>) {

    ghost predicate Valid() {
      Distinct(order) && forall id :: id in order <==> id in entries
    }

    /** `map.set(id, item)`: a new key goes to the end, an existing one keeps its place. */
    function Set(id: nat, item: Listing): (r: ActiveMap)
      requires Valid()
      ensures r.Valid() && r.entries == entries[id := item]
      ensures r.order == if id in entries then order else order + [id]
    {
      ActiveMap(if id in entries then order else order + [id], entries[id := item])
    }

    /** `map.delete(id)`: the other keys keep their order; no effect when `id` is absent. */
    function Delete(id: nat): (r: ActiveMap)
      requires Valid()
      ensures r.Valid() && r.entries == entries - {id}
      ensures forall i :: 0 <= i < |order| && order[i] == id ==> r.order == order[..i] + order[i + 1..]
      ensures id !in entries ==> r == this
    {
      if id in entries then
        assert forall i :: 0 <= i < |order| && order[i] == id ==> Without(order, id) == order[..i] + order[i + 1..] by {
          forall i | 0 <= i < |order| && order[i] == id
            ensures Without(order, id) == order[..i] + order[i + 1..]
          {
            assert forall k :: 0 <= k < |order| && k != i ==> order[k] != order[i];
            WithoutCutsOut(order, i);
          }
        }
        ActiveMap(Without(order, id), entries - {id})
      else this
    }

    /** `Array.from(map.entries()).map(([id, v]) => ({ id, ...v }))`. */
    function Rows(): (rows: seq<Row>)
      requires Valid()
      ensures DistinctIds(rows)
      ensures forall id :: HasId(rows, id) <==> id in entries
      ensures forall k :: 0 <= k < |rows| ==> rows[k].id in entries && rows[k].item == entries[rows[k].id]
    {
      var rows := EntryRows(order, entries);
      assert forall id :: id in entries ==> HasId(rows, id) by {
        forall id | id in entries ensures HasId(rows, id) {
          var k :| 0 <= k < |order| && order[k] == id;
          assert rows[k].id == id;
        }
      }
      rows
    }
  }

  function Get(m: map<nat, Listing>, id: nat): Option<Listing> {
    if id in m then Some(m[id]) else None
  }

  /**
   * One step of the fold on the map's entries keeps them equal to "the last
   * event wins" over the events seen so far.
   */
  lemma FoldStep(before: map<nat, Listing>, after: map<nat, Listing>, es: seq<MarketEvent>, e: MarketEvent)
    requires forall id :: Get(before, id) == Expected(None, es, id)
    requires after == match e
                      case Listed(id, item) => before[id := item]
                      case Canceled(id) => before - {id}
                      case Purchased(id) => before - {id}
                      case Unrecognized => before
    ensures forall id :: Get(after, id) == Expected(None, es + [e], id)
  {
    forall id ensures Get(after, id) == Expected(None, es + [e], id) {
      ExpectedStep(None, false, es, e, id);
    }
  }

  /**
   * The fold of the route: decode each log in order; `Listed` sets the
   * listing, `Canceled` and `Purchased` delete it, anything else is skipped.
   * A listing is in the output exactly when the last event about it is a
   * `Listed`, and then it carries that event's record.
   */
  method Project(logs: seq<Log>, decode: Decoder) returns (rows: seq<Row>)
    ensures DistinctIds(rows)
    ensures forall id :: HasId(rows, id) <==>
                           (LastFor(EventsOf(logs, decode), id).Some? && LastFor(EventsOf(logs, decode), id).value.Listed?)
    ensures forall k :: 0 <= k < |rows| ==> Expected(None, EventsOf(logs, decode), rows[k].id) == Some(rows[k].item)
  {
    var active := ActiveMap([], map[]);
    for i := 0 to |logs|
      invariant active.Valid()
      invariant forall id :: Get(active.entries, id) == Expected(None, EventsOf(logs[..i], decode), id)
    {
      var parsed := decode(ToTopics(logs[i].topics), logs[i].data);
      var e := Classify(parsed);
      ghost var before := active.entries;
      match e {
        case Listed(id, item) => active := active.Set(id, item);
        case Canceled(id) => active := active.Delete(id);
        case Purchased(id) => active := active.Delete(id);
        case Unrecognized =>
      }
      EventsOfPrefix(logs, i, decode);
      FoldStep(before, active.entries, EventsOf(logs[..i], decode), e);
    }
    assert logs[..|logs|] == logs;
    rows := active.Rows();
    forall id ensures HasId(rows, id) <==>
                        (LastFor(EventsOf(logs, decode), id).Some? && LastFor(EventsOf(logs, decode), id).value.Listed?) {
      ExpectedFromNothing(EventsOf(logs, decode), id);
    }
  }

  /** The route's reply: the rows, or a server error carrying the provider's message. */
  datatype Reply = Rows200(rows: seq<Row>) | Error500(message: string)

  /** The message of the `TypeError` that `JSON.stringify` throws on a `bigint`. */
  const BigIntError: string := "Do not know how to serialize a BigInt"

  /**
   * `NextResponse.json` on a reply, as the route calls it. Every row carries
   * its token id and price as `bigint`, which JSON cannot encode, so a
   * non-empty list of rows throws and the route's `catch` answers 500 with
   * the thrown message. An error reply carries only text and goes through.
   */
  function SerializeAsWritten(reply: Reply): (r: Reply)
    ensures r.Rows200? <==> reply.Rows200? && reply.rows == []
    ensures r.Rows200? ==> r == reply
    ensures r.Error500? ==> r.message == (if reply.Error500? then reply.message else BigIntError)
  {
    if reply.Rows200? && reply.rows != [] then Error500(BigIntError) else reply
  }

  /**
   * `GET /api/active` as it evidently means to answer, with amounts encoded in
   * a form JSON accepts. `latest` is the provider's answer to `getBlockNumber`,
   * `getLogs(from)` its answer to a log query from `from` to the latest block.
   */
  method GetActiveIntended(latest: Response<nat>, getLogs: nat -> Response<seq<Log>>, decode: Decoder) returns (reply: Reply)
    ensures latest.Err? ==> reply == Error500(latest.error.message)
    ensures latest.Ok? && getLogs(ScanStart(latest.value)).Err? ==>
              reply == Error500(getLogs(ScanStart(latest.value)).error.message)
    ensures latest.Ok? && getLogs(ScanStart(latest.value)).Ok? ==>
              var es := EventsOf(getLogs(ScanStart(latest.value)).value, decode);
              && reply.Rows200?
              && DistinctIds(reply.rows)
              && (forall id :: HasId(reply.rows, id) <==> LastFor(es, id).Some? && LastFor(es, id).value.Listed?)
              && (forall k :: 0 <= k < |reply.rows| ==> Expected(None, es, reply.rows[k].id) == Some(reply.rows[k].item))
  {
    if latest.Err? {
      return Error500(latest.error.message);
    }
    var from := ScanStart(latest.value);
    var response := getLogs(from);
    if response.Err? {
      return Error500(response.error.message);
    }
    var rows := Project(response.value, decode);
    return Rows200(rows);
  }

  /**
   * `GET /api/active` as written: provider errors give a 500 with their
   * message; otherwise the answer is 200 only when no listing is active, and
   * a 500 with the serialization error as soon as one is.
   */
  method GetActive(latest: Response<nat>, getLogs: nat -> Response<seq<Log>>, decode: Decoder) returns (reply: Reply)
    ensures latest.Err? ==> reply == Error500(latest.error.message)
    ensures latest.Ok? && getLogs(ScanStart(latest.value)).Err? ==>
              reply == Error500(getLogs(ScanStart(latest.value)).error.message)
    ensures latest.Ok? && getLogs(ScanStart(latest.value)).Ok? ==>
              var es := EventsOf(getLogs(ScanStart(latest.value)).value, decode);
              && (reply.Rows200? <==> forall id :: !(LastFor(es, id).Some? && LastFor(es, id).value.Listed?))
              && (reply.Rows200? ==> reply.rows == [])
              && (reply.Error500? ==> reply.message == BigIntError)
  {
    var intended := GetActiveIntended(latest, getLogs, decode);
    reply := SerializeAsWritten(intended);
    if latest.Ok? && getLogs(ScanStart(latest.value)).Ok? {
      ghost var es := EventsOf(getLogs(ScanStart(latest.value)).value, decode);
      if intended.rows == [] {
        forall id ensures !(LastFor(es, id).Some? && LastFor(es, id).value.Listed?) {
          assert !HasId(intended.rows, id);
        }
        assert reply == intended;
      } else {
        ghost var id := intended.rows[0].id;
        assert HasId(intended.rows, id);
        assert LastFor(es, id).Some? && LastFor(es, id).value.Listed?;
        assert reply == Error500(BigIntError);
      }
    }
  }

  /** A single log that decodes to `Listed` makes a listing active, so the route as written answers 500. */
  lemma ListedLogMakesActive(log: Log, decode: Decoder)
    requires Classify(decode(ToTopics(log.topics), log.data)).Listed?
    ensures exists id :: LastFor(EventsOf([log], decode), id).Some? && LastFor(EventsOf([log], decode), id).value.Listed?
  {
    var e := Classify(decode(ToTopics(log.topics), log.data));
    assert EventsOf([log], decode) == [e];
    assert LastFor([e], e.id).Some?;
  }
}

=== FILE: provider.dfy ===
/**
 * What the indexer gets back from the JSON-RPC provider (`viem`'s public
 * client): an answer, or a thrown error with a message and possibly a
 * numeric code.
 */
module Provider {
  import opened Wrappers

  /** An error reported by the RPC provider: its message and optional numeric code. */
  datatype RpcError = RpcError(message: string, code: Option<int>)

  /** The outcome of one call to the RPC provider. */
  datatype Response<T> = Ok(value: T) | Err(error: RpcError)
}

=== FILE: query.dfy ===
/**
 * The indexed active-listings route (`GET /api/indexer/active`): filter the
 * listings read from the store by seller, collection and price, sort them
 * by listing id from newest to oldest, keep those below the cursor and cut
 * one page.
 */
module Query {
  import opened Wrappers
  import opened Strings
  import opened Events
  import Kv
  import Storage

  /** A JavaScript number as produced by `Number(text)`. */
  datatype JsNum = NaN | PosInf | NegInf | Finite(r: real)

  /**
   * The filtering part of the query string, already parsed. `None` stands for
   * a parameter that is absent or empty; prices are in wei (what `parseEther`
   * returns).
   */
  datatype Filter = Filter(seller: Option<string>, nft: Option<string>, minWei: Option<int>, maxWei: Option<int>)

  /** The whole query string: the filter, the page size and the cursor. */
  datatype Params = Params(filter: Filter, limit: Option<JsNum>, cursor: Option<int>)

  /** One page of the answer. */
  datatype Page = Page(items: seq<Row>, nextCursor: Option<nat>)

  const DefaultLimit: nat := 24
  const MaxLimit: nat := 60

  /** The filter of the route: an empty seller or collection matches every row. */
  predicate Matches(q: Filter, x: Row): (r: bool)
    ensures q == Filter(None, None, None, None) ==> r
    ensures r ==> q.minWei.GetOr(0) <= x.item.price && (q.maxWei.Some? ==> x.item.price <= q.maxWei.value)
    ensures r && q.seller.Some? && Lower(q.seller.value) != "" ==> Lower(x.item.seller) == Lower(q.seller.value)
    ensures r && q.nft.Some? && Lower(q.nft.value) != "" ==> Lower(x.item.nft) == Lower(q.nft.value)
    ensures (&& (q.seller.None? || Lower(x.item.seller) == Lower(q.seller.value))
             && (q.nft.None? || Lower(x.item.nft) == Lower(q.nft.value))
             && q.minWei.GetOr(0) <= x.item.price
             && (q.maxWei.None? || x.item.price <= q.maxWei.value)) ==> r
  {
    var seller := Lower(q.seller.GetOr(""));
    var nft := Lower(q.nft.GetOr(""));
    && (seller == "" || Lower(x.item.seller) == seller)
    && (nft == "" || Lower(x.item.nft) == nft)
    && x.item.price >= q.minWei.GetOr(0)
    && (q.maxWei.None? || x.item.price <= q.maxWei.value)
  }

  /** Listing ids never increase from left to right. */
  ghost predicate SortedDesc(s: seq<Row>) {
    forall i, j :: 0 <= i < j < |s| ==> s[i].id >= s[j].id
  }

  /** Listing ids strictly decrease from left to right. */
  ghost predicate StrictlyDesc(s: seq<Row>) {
    forall i, j :: 0 <= i < j < |s| ==> s[i].id > s[j].id
  }

  /** `rows.filter(matches)`. */
  function Matching(rows: seq<Row>, q: Filter): (r: seq<Row>)
    ensures forall x :: x in r <==> x in rows && Matches(q, x)
    ensures DistinctIds(rows) ==> DistinctIds(r)
  {
    if rows == [] then []
    else
      var rest := Matching(rows[1..], q);
      assert forall y :: y in rest ==> y in rows[1..];
      assert DistinctIds(rows) ==> DistinctIds(rows[1..]);
      if Matches(q, rows[0]) then
        assert DistinctIds(rows) ==> DistinctIds([rows[0]] + rest) by {
          if DistinctIds(rows) {
            assert forall k :: 0 <= k < |rows[1..]| ==> rows[1..][k] == rows[k + 1];
            PrependDistinct(rows[0], rest);
          }
        }
        [rows[0]] + rest
      else rest
  }

  /** `rows.filter(x => x.id < c)`: the rows after cursor `c` in a descending list. */
  function Below(rows: seq<Row>, c: int): (r: seq<Row>)
    ensures forall x :: x in r <==> x in rows && x.id < c
    ensures |r| <= |rows|
  {
    if rows == [] then []
    else if rows[0].id < c then [rows[0]] + Below(rows[1..], c)
    else Below(rows[1..], c)
  }

  /** A row with an id no smaller than any in a descending list can go in front. */
  lemma PrependSorted(x: Row, s: seq<Row>)
    requires SortedDesc(s) && forall y :: y in s ==> y.id <= x.id
    ensures SortedDesc([x] + s)
  {
    forall i, j | 0 <= i < j < |[x] + s| ensures ([x] + s)[i].id >= ([x] + s)[j].id {
      assert ([x] + s)[j] == s[j - 1] && s[j - 1] in s;
    }
  }

  /** A row with a larger id than any in a strictly descending list can go in front. */
  lemma PrependStrict(x: Row, s: seq<Row>)
    requires StrictlyDesc(s) && forall y :: y in s ==> y.id < x.id
    ensures StrictlyDesc([x] + s)
  {
    forall i, j | 0 <= i < j < |[x] + s| ensures ([x] + s)[i].id > ([x] + s)[j].id {
      assert ([x] + s)[j] == s[j - 1] && s[j - 1] in s;
    }
  }

  /** A row with a new id can go in front of a list with distinct ids. */
  lemma PrependDistinct(x: Row, s: seq<Row>)
    requires DistinctIds(s) && forall y :: y in s ==> y.id != x.id
    ensures DistinctIds([x] + s)
  {
    forall i, j | 0 <= i < j < |[x] + s| ensures ([x] + s)[i].id != ([x] + s)[j].id {
      assert ([x] + s)[j] == s[j - 1] && s[j - 1] in s;
    }
  }

  /** The head of a descending list bounds its tail, and the tail is descending too. */
  lemma HeadBounds(s: seq<Row>)
    requires s != []
    ensures SortedDesc(s) ==> SortedDesc(s[1..]) && forall y :: y in s[1..] ==> y.id <= s[0].id
    ensures StrictlyDesc(s) ==> StrictlyDesc(s[1..]) && forall y :: y in s[1..] ==> y.id < s[0].id
  {
    forall y | y in s[1..] ensures exists k :: 1 <= k < |s| && s[k] == y {
      var k :| 0 <= k < |s[1..]| && s[1..][k] == y;
      assert s[k + 1] == y;
    }
  }

  /** Cutting keeps the order of a descending list. */
  lemma {:induction false} BelowKeepsOrder(s: seq<Row>, c: int)
    ensures SortedDesc(s) ==> SortedDesc(Below(s, c))
    ensures StrictlyDesc(s) ==> StrictlyDesc(Below(s, c))
    decreases |s|
  {
    if s != [] {
      HeadBounds(s);
      BelowKeepsOrder(s[1..], c);
      var rest := Below(s[1..], c);
      if s[0].id < c && SortedDesc(s) {
        PrependSorted(s[0], rest);
      }
      if s[0].id < c && StrictlyDesc(s) {
        PrependStrict(s[0], rest);
      }
    }
  }

  /** `x` placed into a descending list after every row with a larger id. */
  function Insert(x: Row, s: seq<Row>): (r: seq<Row>)
    requires SortedDesc(s)
    ensures SortedDesc(r)
    ensures multiset(r) == multiset(s) + multiset{x}
    ensures forall y :: y in r <==> y == x || y in s
  {
    if s == [] || s[0].id <= x.id then
      assert SortedDesc([x] + s) by {
        if s != [] {
          HeadBounds(s);
        }
        PrependSorted(x, s);
      }
      [x] + s
    else
      assert SortedDesc(s[1..]) && forall y :: y in s[1..] ==> y.id <= s[0].id by {
        HeadBounds(s);
      }
      var rest := Insert(x, s[1..]);
      assert SortedDesc([s[0]] + rest) by {
        PrependSorted(s[0], rest);
      }
      assert s == [s[0]] + s[1..];
      [s[0]] + rest
  }

  /** Insertion keeps ids distinct when `x` brings a new one. */
  lemma {:induction false} InsertDistinct(x: Row, s: seq<Row>)
    requires SortedDesc(s) && DistinctIds(s) && forall y :: y in s ==> y.id != x.id
    ensures DistinctIds(Insert(x, s))
    decreases |s|
  {
    if s == [] || s[0].id <= x.id {
      PrependDistinct(x, s);
    } else {
      assert forall y :: y in s[1..] ==> y in s;
      assert forall k :: 0 <= k < |s[1..]| ==> s[1..][k] == s[k + 1];
      InsertDistinct(x, s[1..]);
      PrependDistinct(s[0], Insert(x, s[1..]));
    }
  }

  /** `rows.sort((a, b) => b.id - a.id)`: a permutation in descending id order. */
  function SortDesc(rows: seq<Row>): (r: seq<Row>)
    ensures SortedDesc(r)
    ensures multiset(r) == multiset(rows)
    ensures forall y :: y in r <==> y in rows
  {
    if rows == [] then []
    else
      assert rows == [rows[0]] + rows[1..];
      Insert(rows[0], SortDesc(rows[1..]))
  }

  /** Sorting rows with distinct ids gives a strictly descending list. */
  lemma {:induction false} SortStrict(rows: seq<Row>)
    requires DistinctIds(rows)
    ensures StrictlyDesc(SortDesc(rows))
    decreases |rows|
  {
    if rows != [] {
      assert forall k :: 0 <= k < |rows[1..]| ==> rows[1..][k] == rows[k + 1];
      SortStrict(rows[1..]);
      assert forall y :: y in rows[1..] ==> y.id != rows[0].id;
      InsertDistinct(rows[0], SortDesc(rows[1..]));
    }
  }

  /** The rows the route pages through: matching, newest first, below the cursor. */
  function Candidates(rows: seq<Row>, q: Params): (r: seq<Row>)
    ensures SortedDesc(r)
    ensures DistinctIds(rows) ==> StrictlyDesc(r)
  {
    var sorted := SortDesc(Matching(rows, q.filter));
    assert DistinctIds(rows) ==> StrictlyDesc(sorted) by {
      if DistinctIds(rows) {
        SortStrict(Matching(rows, q.filter));
      }
    }
    if q.cursor.Some? then
      BelowKeepsOrder(sorted, q.cursor.value);
      Below(sorted, q.cursor.value)
    else sorted
  }

  /** The candidates are exactly the stored rows that match and lie below the cursor. */
  lemma CandidatesMembers(rows: seq<Row>, q: Params)
    ensures forall x :: x in Candidates(rows, q) <==>
              x in rows && Matches(q.filter, x) && (q.cursor.None? || x.id < q.cursor.value)
  {
  }

  function Min(a: int, b: int): int { if a < b then a else b }

  /** The first `limit` rows, and the id of the last one when the page is full. */
  function PageOf(sliced: seq<Row>, limit: nat): (p: Page)
    requires limit >= 1
    ensures |p.items| == Min(limit, |sliced|) && p.items == sliced[..|p.items|]
    ensures p.nextCursor.Some? <==> |sliced| >= limit
    ensures p.nextCursor.Some? ==> p.nextCursor.value == sliced[limit - 1].id
  {
    var items := sliced[..Min(limit, |sliced|)];
    Page(items, if |items| == limit then Some(items[limit - 1].id) else None)
  }

  /**
   * The page size the route evidently means: the number in the `limit`
   * parameter rounded down and clamped to [1, 60], 24 when it is absent or
   * not a number.
   */
  function Limit(p: Option<JsNum>): (n: nat)
    ensures 1 <= n <= MaxLimit
    ensures p.None? || p == Some(NaN) ==> n == DefaultLimit
    ensures p.Some? && p.value.Finite? && 1.0 <= p.value.r <= 60.0 ==> n as real <= p.value.r < n as real + 1.0
  {
    match p.GetOr(NaN)
    case NaN => DefaultLimit
    case PosInf => MaxLimit
    case NegInf => 1
    case Finite(r) => if r < 1.0 then 1 else if r >= 60.0 then MaxLimit else r.Floor
  }

  /** The route: the first `Limit` candidates, with a cursor when the page is full. */
  function Answer(rows: seq<Row>, q: Params): (p: Page)
    ensures |p.items| == Min(Limit(q.limit), |Candidates(rows, q)|)
    ensures p.items == Candidates(rows, q)[..|p.items|]
    ensures p.nextCursor.Some? <==> |p.items| == Limit(q.limit)
    ensures p.nextCursor.Some? ==> p.nextCursor.value == p.items[|p.items| - 1].id
  {
    PageOf(Candidates(rows, q), Limit(q.limit))
  }

  /** Every row on a page is stored, matches the filter and lies below the cursor; ids descend. */
  lemma AnswerSound(rows: seq<Row>, q: Params)
    ensures forall x :: x in Answer(rows, q).items ==>
              x in rows && Matches(q.filter, x) && (q.cursor.None? || x.id < q.cursor.value)
    ensures SortedDesc(Answer(rows, q).items)
    ensures DistinctIds(rows) ==> StrictlyDesc(Answer(rows, q).items)
  {
    var c := Candidates(rows, q);
    CandidatesMembers(rows, q);
    var items := Answer(rows, q).items;
    assert forall k :: 0 <= k < |items| ==> items[k] == c[k];
    assert forall x :: x in items ==> x in c;
  }

  /** No matching row below the cursor is skipped: each one missing from the page comes after it. */
  lemma AnswerComplete(rows: seq<Row>, q: Params)
    ensures forall x :: x in rows && Matches(q.filter, x) && (q.cursor.None? || x.id < q.cursor.value) &&
                        x !in Answer(rows, q).items ==>
              Answer(rows, q).nextCursor.Some? && x.id <= Answer(rows, q).nextCursor.value
  {
    var c := Candidates(rows, q);
    CandidatesMembers(rows, q);
    var p := Answer(rows, q);
    forall x | x in c && x !in p.items
      ensures p.nextCursor.Some? && x.id <= p.nextCursor.value
    {
      var j :| 0 <= j < |c| && c[j] == x;
      assert forall k :: 0 <= k < |p.items| ==> p.items[k] == c[k] && p.items[k] in p.items;
      assert j >= |p.items|;
    }
  }

  /** The route on the store: `readAllActive` followed by the query. */
  method GetIndexed(db: Kv.Redis, ns: string, q: Params) returns (p: Page, ghost rows: seq<Row>)
    ensures forall x :: x in rows <==>
              x.id in Storage.IdsOf(db.data, ns) && Storage.RecordAt(db.data, ns, x.id) == Some(x.item)
    ensures DistinctIds(rows)
    ensures p == Answer(rows, q)
    ensures |p.items| <= Limit(q.limit)
    ensures StrictlyDesc(p.items)
    ensures forall x :: x in p.items ==>
              x.id in Storage.IdsOf(db.data, ns) && Storage.RecordAt(db.data, ns, x.id) == Some(x.item) &&
              Matches(q.filter, x) && (q.cursor.None? || x.id < q.cursor.value)
    ensures p.nextCursor.Some? <==> |p.items| == Limit(q.limit)
    ensures p.nextCursor.Some? ==> p.nextCursor.value == p.items[|p.items| - 1].id
    ensures forall id :: id in Storage.IdsOf(db.data, ns) && Storage.RecordAt(db.data, ns, id).Some? &&
                         Matches(q.filter, Row(id, Storage.RecordAt(db.data, ns, id).value)) &&
                         (q.cursor.None? || id < q.cursor.value) &&
                         Row(id, Storage.RecordAt(db.data, ns, id).value) !in p.items ==>
              p.nextCursor.Some? && id <= p.nextCursor.value
  {
    var read := Storage.ReadAllActive(db, ns);
    rows := read;
    p := Answer(read, q);
    AnswerSound(rows, q);
    AnswerComplete(rows, q);
  }

  /**
   * Every page that following `nextCursor` from `q` produces, concatenated.
   */
  ghost function Pages(rows: seq<Row>, q: Params): seq<Row>
    decreases |Candidates(rows, q)|
  {
    var p := Answer(rows, q);
    if p.nextCursor.None? then p.items
    else
      NextShrinks(rows, q);
      p.items + Pages(rows, q.(cursor := p.nextCursor))
  }

  /** After a full page the candidates are those past the page. */
  lemma NextShrinks(rows: seq<Row>, q: Params)
    requires Answer(rows, q).nextCursor.Some?
    ensures |Candidates(rows, q.(cursor := Answer(rows, q).nextCursor))| < |Candidates(rows, q)|
    ensures DistinctIds(rows) ==>
              Candidates(rows, q.(cursor := Answer(rows, q).nextCursor)) == Candidates(rows, q)[Limit(q.limit)..]
  {
    var c := Candidates(rows, q);
    var n := Limit(q.limit);
    assert Answer(rows, q) == PageOf(c, n);
    var last := c[n - 1].id;
    var next := q.(cursor := Some(last));
    assert Answer(rows, q).nextCursor == Some(last);
    var sorted := SortDesc(Matching(rows, q.filter));
    assert Candidates(rows, next) == Below(sorted, last);
    if q.cursor.Some? {
      assert c == Below(sorted, q.cursor.value);
      assert c[n - 1] in c;
      BelowBelow(sorted, q.cursor.value, last);
    } else {
      assert c == sorted;
    }
    assert Candidates(rows, next) == Below(c, last);
    BelowShrinks(c, n - 1, last);
    if DistinctIds(rows) {
      BelowAt(c, n);
    }
  }

  /** Cutting at a later cursor after an earlier one is cutting at the later one. */
  lemma {:induction false} BelowBelow(s: seq<Row>, c: int, d: int)
    requires d <= c
    ensures Below(Below(s, c), d) == Below(s, d)
    decreases |s|
  {
    if s != [] {
      BelowBelow(s[1..], c, d);
    }
  }

  /** A row that fails the cut is missing from it. */
  lemma BelowShrinks(s: seq<Row>, k: nat, c: int)
    requires k < |s| && s[k].id >= c
    ensures |Below(s, c)| < |s|
    decreases |s|
  {
    if k > 0 {
      BelowShrinks(s[1..], k - 1, c);
    }
  }

  /** In a strictly descending list, cutting below the `k`-th row's id leaves what follows it. */
  lemma {:induction false} BelowAt(s: seq<Row>, k: nat)
    requires StrictlyDesc(s) && 1 <= k <= |s|
    ensures Below(s, s[k - 1].id) == s[k..]
    decreases |s|
  {
    if k == 1 {
      AllBelow(s[1..], s[0].id);
    } else {
      BelowAt(s[1..], k - 1);
    }
  }

  /** Cutting above every id keeps everything. */
  lemma {:induction false} AllBelow(s: seq<Row>, c: int)
    requires forall k :: 0 <= k < |s| ==> s[k].id < c
    ensures Below(s, c) == s
    decreases |s|
  {
    if s != [] {
      AllBelow(s[1..], c);
    }
  }

  /** A page without a cursor holds every remaining candidate. */
  lemma LastPage(rows: seq<Row>, q: Params)
    requires Answer(rows, q).nextCursor.None?
    ensures Pages(rows, q) == Candidates(rows, q)
  {
  }

  /** A full page followed by the pages after its cursor. */
  lemma PagesStep(rows: seq<Row>, q: Params) returns (n: nat)
    requires DistinctIds(rows) && Answer(rows, q).nextCursor.Some?
    ensures n == Limit(q.limit) <= |Candidates(rows, q)|
    ensures |Candidates(rows, q.(cursor := Answer(rows, q).nextCursor))| < |Candidates(rows, q)|
    ensures Pages(rows, q) == Candidates(rows, q)[..n] + Pages(rows, q.(cursor := Answer(rows, q).nextCursor))
    ensures Candidates(rows, q.(cursor := Answer(rows, q).nextCursor)) == Candidates(rows, q)[n..]
  {
    n := Limit(q.limit);
    NextShrinks(rows, q);
  }

  /**
   * Following `nextCursor` from the first page visits every candidate once,
   * newest first, with nothing skipped or repeated.
   */
  lemma {:induction false} PagesCoverCandidates(rows: seq<Row>, q: Params)
    requires DistinctIds(rows)
    ensures Pages(rows, q) == Candidates(rows, q)
    decreases |Candidates(rows, q)|
  {
    var c := Candidates(rows, q);
    var p := Answer(rows, q);
    if p.nextCursor.None? {
      LastPage(rows, q);
    } else {
      var next := q.(cursor := p.nextCursor);
      var n := PagesStep(rows, q);
      PagesCoverCandidates(rows, next);
      SplitAt(c, n);
    }
  }

  lemma SplitAt(s: seq<Row>, n: nat)
    requires n <= |s|
    ensures s[..n] + s[n..] == s
  {
  }

  // ---- The page size as the route computes it ----

  /** `Math.max(1, Math.min(Number(limit || "24"), 60))`. */
  function AsWrittenLimit(p: Option<JsNum>): (n: JsNum)
    ensures n.NaN? <==> p == Some(NaN)
    ensures n.Finite? <==> p != Some(NaN)
    ensures n.Finite? ==> 1.0 <= n.r <= 60.0
    ensures p.None? ==> n == Finite(24.0)
    ensures p.Some? && p.value.Finite? && 1.0 <= p.value.r <= 60.0 ==> n == p.value
    ensures p == Some(PosInf) || (p.Some? && p.value.Finite? && p.value.r > 60.0) ==> n == Finite(60.0)
    ensures p == Some(NegInf) || (p.Some? && p.value.Finite? && p.value.r < 1.0) ==> n == Finite(1.0)
  {
    match p.GetOr(Finite(24.0))
    case NaN => NaN
    case PosInf => Finite(60.0)
    case NegInf => Finite(1.0)
    case Finite(r) => Finite(if r > 60.0 then 60.0 else if r < 1.0 then 1.0 else r)
  }

  /** `sliced.slice(0, limit)` and `page.length === limit` with the number above. */
  function PageAsWritten(sliced: seq<Row>, p: Option<JsNum>): (r: Page)
    ensures p != Some(NaN) ==> |r.items| == Min(AsWrittenLimit(p).r.Floor, |sliced|)
    ensures p == Some(NaN) ==> r == Page([], None)
    ensures r.items == sliced[..|r.items|]
    ensures r.nextCursor.Some? <==> AsWrittenLimit(p).Finite? && |r.items| as real == AsWrittenLimit(p).r
    ensures r.nextCursor.Some? ==> r.items != [] && r.nextCursor.value == r.items[|r.items| - 1].id
  {
    var limit := AsWrittenLimit(p);
    var k := if limit.Finite? then Min(limit.r.Floor, |sliced|) else 0;
    var items := sliced[..k];
    Page(items, if limit.Finite? && |items| as real == limit.r then Some(items[|items| - 1].id) else None)
  }

  /** For a whole-number `limit` the route behaves as intended. */
  lemma AsWrittenAgrees(sliced: seq<Row>, p: Option<JsNum>)
    requires p.None? || p.value.PosInf? || p.value.NegInf? || (p.value.Finite? && p.value.r == p.value.r.Floor as real)
    ensures PageAsWritten(sliced, p) == PageOf(sliced, Limit(p))
  {
  }

  /** `limit=2.5` over three candidates: a full page of two, yet no cursor to the third. */
  lemma FractionalLimitStopsEarly(a: Listing)
    ensures var sliced := [Row(3, a), Row(2, a), Row(1, a)];
            && PageAsWritten(sliced, Some(Finite(2.5))) == Page([Row(3, a), Row(2, a)], None)
            && PageOf(sliced, Limit(Some(Finite(2.5)))) == Page([Row(3, a), Row(2, a)], Some(2))
  {
    assert (2.5).Floor == 2;
  }

  /** `limit=abc` over any candidates: an empty page and no cursor. */
  lemma NaNLimitEmptiesPage(sliced: seq<Row>)
    requires |sliced| > 0
    ensures PageAsWritten(sliced, Some(NaN)).items == []
    ensures PageOf(sliced, Limit(Some(NaN))).items != []
  {
  }
}

=== FILE: storage.dfy ===
/**
 * The indexer's active-listing store: a lock, a block cursor, the set of
 * active listing ids and one record per id, all under keys namespaced by
 * chain id and marketplace address.
 */
module Storage {
  import opened Wrappers
  import opened Strings
  import opened Events
  import opened Kv

  /* ---------------- Key namespace ---------------- */

  const DefaultChainId: string := "11155111"

  /** `NEXT_PUBLIC_CHAIN_ID || "11155111"`: never empty; an unset or empty variable gives Sepolia's id. */
  function ChainId(configured: Option<string>): (r: string)
    ensures r != ""
    ensures configured.Some? && configured.value != "" ==> r == configured.value
    ensures configured.None? || configured.value == "" ==> r == DefaultChainId
  {
    if configured.None? || configured.value == "" then DefaultChainId else configured.value
  }

  /**
   * `[chainId, marketplaceAddress.toLowerCase()].join(":")`: the chain id, a
   * colon, then the address with no upper-case letter left, so addresses that
   * differ only in case share a namespace.
   */
  function Namespace(chain: Option<string>, market: Option<string>): (r: string)
    ensures var c := ChainId(chain); |c| < |r| && r[..|c|] == c && r[|c|] == ':'
    ensures forall i :: |ChainId(chain)| < i < |r| ==> !('A' <= r[i] <= 'Z')
    ensures |r| == |ChainId(chain)| + 1 + |market.GetOr("")|
    ensures r[|ChainId(chain)| + 1..] == Lower(market.GetOr(""))
  {
    ChainId(chain) + ":" + Lower(market.GetOr(""))
  }

  function LastKey(ns: string): string { ns + ":idx:lastBlock" }
  function IdsKey(ns: string): string { ns + ":idx:activeIds" }
  function LockKey(ns: string): string { ns + ":idx:lock" }
  function ListingKey(ns: string, id: nat): string { ns + ":idx:listing:" + Decimal(id) }

  /** Distinct ids get distinct record keys, and no record key is the cursor, id-set or lock key. */
  lemma {:induction false} KeysDistinct(ns: string, a: nat, b: nat)
    ensures a != b ==> ListingKey(ns, a) != ListingKey(ns, b)
    ensures ListingKey(ns, a) != LastKey(ns) && ListingKey(ns, a) != IdsKey(ns) && ListingKey(ns, a) != LockKey(ns)
    ensures LastKey(ns) != IdsKey(ns) && LastKey(ns) != LockKey(ns) && IdsKey(ns) != LockKey(ns)
  {
    var n := |ns|;
    if a != b && ListingKey(ns, a) == ListingKey(ns, b) {
      var p := ns + ":idx:listing:";
      assert ListingKey(ns, a)[|p|..] == Decimal(a);
      assert ListingKey(ns, b)[|p|..] == Decimal(b);
      DecimalInjective(a, b);
    }
    assert ListingKey(ns, a)[n + 5] == 'l' && ListingKey(ns, a)[n + 6] == 'i';
    assert LastKey(ns)[n + 5] == 'l' && LastKey(ns)[n + 6] == 'a';
    assert IdsKey(ns)[n + 5] == 'a';
    assert LockKey(ns)[n + 5] == 'l' && LockKey(ns)[n + 6] == 'o';
  }

  /* ---------------- The store's state, read off the key/value map ---------------- */

  /** The active-id set. */
  function IdsOf(m: map<string, Value>, ns: string): set<nat> {
    MembersOf(m, IdsKey(ns))
  }

  /** The record stored for `id`, if it is present and parses. */
  function RecordAt(m: map<string, Value>, ns: string, id: nat): Option<Listing> {
    var k := ListingKey(ns, id);
    if k in m && m[k].Record? then Some(m[k].item) else None
  }

  /** The cursor; an absent cursor reads as block 0. */
  function CursorOf(m: map<string, Value>, ns: string): nat {
    if LastKey(ns) in m && m[LastKey(ns)].Height? then m[LastKey(ns)].block else 0
  }

  predicate LockHeld(m: map<string, Value>, ns: string) {
    LockKey(ns) in m
  }

  /* ---------------- State transitions ---------------- */

  function Acquired(m: map<string, Value>, ns: string): map<string, Value> {
    m[LockKey(ns) := Text("1")]
  }

  function Released(m: map<string, Value>, ns: string): map<string, Value> {
    m - {LockKey(ns)}
  }

  function WithCursor(m: map<string, Value>, ns: string, b: nat): map<string, Value> {
    m[LastKey(ns) := Height(b)]
  }

  /** `upsertActive`: write the record, then add the id to the set. */
  function Upserted(m: map<string, Value>, ns: string, id: nat, item: Listing): map<string, Value> {
    AddMember(m[ListingKey(ns, id) := Record(item)], IdsKey(ns), id)
  }

  /** `removeActive`: delete the record, then drop the id from the set. */
  function Removed(m: map<string, Value>, ns: string, id: nat): map<string, Value> {
    RemoveMember(m - {ListingKey(ns, id)}, IdsKey(ns), id)
  }

  /** Moving the cursor sets it and moves nothing else. */
  lemma CursorViews(m: map<string, Value>, ns: string, b: nat, id: nat)
    ensures RecordAt(WithCursor(m, ns, b), ns, id) == RecordAt(m, ns, id)
    ensures IdsOf(WithCursor(m, ns, b), ns) == IdsOf(m, ns)
    ensures CursorOf(WithCursor(m, ns, b), ns) == b
    ensures LockHeld(WithCursor(m, ns, b), ns) == LockHeld(m, ns)
  {
    KeysDistinct(ns, id, id);
  }

  /** Taking or freeing the lock changes the lock and nothing else. */
  lemma LockViews(m: map<string, Value>, ns: string, id: nat)
    ensures RecordAt(Acquired(m, ns), ns, id) == RecordAt(Released(m, ns), ns, id) == RecordAt(m, ns, id)
    ensures IdsOf(Acquired(m, ns), ns) == IdsOf(Released(m, ns), ns) == IdsOf(m, ns)
    ensures CursorOf(Acquired(m, ns), ns) == CursorOf(Released(m, ns), ns) == CursorOf(m, ns)
    ensures LockHeld(Acquired(m, ns), ns) && !LockHeld(Released(m, ns), ns)
  {
    KeysDistinct(ns, id, id);
  }

  /** What an upsert does to the store's state: `id` is active with `item`, nothing else moves. */
  lemma UpsertViews(m: map<string, Value>, ns: string, id: nat, item: Listing, other: nat)
    ensures RecordAt(Upserted(m, ns, id, item), ns, other) ==
              if other == id then Some(item) else RecordAt(m, ns, other)
    ensures IdsOf(Upserted(m, ns, id, item), ns) == IdsOf(m, ns) + {id}
    ensures CursorOf(Upserted(m, ns, id, item), ns) == CursorOf(m, ns)
    ensures LockHeld(Upserted(m, ns, id, item), ns) == LockHeld(m, ns)
  {
    KeysDistinct(ns, id, other);
    KeysDistinct(ns, other, id);
  }

  /** What a removal does: `id` has neither record nor set membership, nothing else moves. */
  lemma RemoveViews(m: map<string, Value>, ns: string, id: nat, other: nat)
    ensures RecordAt(Removed(m, ns, id), ns, other) == if other == id then None else RecordAt(m, ns, other)
    ensures IdsOf(Removed(m, ns, id), ns) == IdsOf(m, ns) - {id}
    ensures CursorOf(Removed(m, ns, id), ns) == CursorOf(m, ns)
    ensures LockHeld(Removed(m, ns, id), ns) == LockHeld(m, ns)
  {
    KeysDistinct(ns, id, other);
    KeysDistinct(ns, other, id);
  }

  /** Upserting the same listing twice leaves the same store as upserting it once. */
  lemma UpsertIdempotent(m: map<string, Value>, ns: string, id: nat, item: Listing)
    ensures Upserted(Upserted(m, ns, id, item), ns, id, item) == Upserted(m, ns, id, item)
  {
    KeysDistinct(ns, id, id);
  }

  /** Removing twice is removing once. */
  lemma RemoveIdempotent(m: map<string, Value>, ns: string, id: nat)
    ensures Removed(Removed(m, ns, id), ns, id) == Removed(m, ns, id)
  {
    KeysDistinct(ns, id, id);
    var m1 := Removed(m, ns, id);
    assert ListingKey(ns, id) !in m1;
    assert m1 - {ListingKey(ns, id)} == m1;
    var k := IdsKey(ns);
    if k in m1 && m1[k].Members? {
      assert k in m && m[k].Members? && m1[k].ids == m[k].ids - {id} != {};
      assert m1[k].ids - {id} == m1[k].ids;
      assert m1[k := Members(m1[k].ids)] == m1;
    }
  }

  /** The store-side effect of one decoded event (`Listed` upserts, `Canceled`/`Purchased` remove). */
  function ApplyEvent(m: map<string, Value>, ns: string, e: MarketEvent): (r: map<string, Value>)
    ensures e.Listed? ==> RecordAt(r, ns, e.id) == Some(e.item) && e.id in IdsOf(r, ns)
    ensures e.Canceled? || e.Purchased? ==> RecordAt(r, ns, e.id) == None && e.id !in IdsOf(r, ns)
    ensures e.Unrecognized? ==> r == m
    ensures !e.Unrecognized? ==>
              IdsOf(r, ns) - {e.id} == IdsOf(m, ns) - {e.id} &&
              forall other :: other != e.id ==> RecordAt(r, ns, other) == RecordAt(m, ns, other)
    ensures CursorOf(r, ns) == CursorOf(m, ns) && LockHeld(r, ns) == LockHeld(m, ns)
  {
    match e
    case Listed(id, item) =>
      assert forall other :: RecordAt(Upserted(m, ns, id, item), ns, other) ==
                               if other == id then Some(item) else RecordAt(m, ns, other) by {
        forall other ensures RecordAt(Upserted(m, ns, id, item), ns, other) ==
                               if other == id then Some(item) else RecordAt(m, ns, other) {
          UpsertViews(m, ns, id, item, other);
        }
      }
      UpsertViews(m, ns, id, item, id);
      Upserted(m, ns, id, item)
    case Canceled(id) =>
      RemovedOthers(m, ns, id);
      Removed(m, ns, id)
    case Purchased(id) =>
      RemovedOthers(m, ns, id);
      Removed(m, ns, id)
    case Unrecognized => m
  }

  /** A removal leaves every other id's record as it was. */
  lemma RemovedOthers(m: map<string, Value>, ns: string, id: nat)
    ensures RecordAt(Removed(m, ns, id), ns, id) == None && IdsOf(Removed(m, ns, id), ns) == IdsOf(m, ns) - {id}
    ensures forall other :: other != id ==> RecordAt(Removed(m, ns, id), ns, other) == RecordAt(m, ns, other)
    ensures CursorOf(Removed(m, ns, id), ns) == CursorOf(m, ns) && LockHeld(Removed(m, ns, id), ns) == LockHeld(m, ns)
  {
    RemoveViews(m, ns, id, id);
    forall other ensures RecordAt(Removed(m, ns, id), ns, other) == if other == id then None else RecordAt(m, ns, other) {
      RemoveViews(m, ns, id, other);
    }
  }

  /** The events applied one after another, in order. */
  function ApplyEvents(m: map<string, Value>, ns: string, es: seq<MarketEvent>): map<string, Value> {
    if es == [] then m else ApplyEvent(ApplyEvents(m, ns, es[..|es| - 1]), ns, es[|es| - 1])
  }

  /** One more event is applied after the others. */
  lemma ApplyEventsSnoc(m: map<string, Value>, ns: string, es: seq<MarketEvent>, e: MarketEvent)
    ensures ApplyEvents(m, ns, es + [e]) == ApplyEvent(ApplyEvents(m, ns, es), ns, e)
  {
    assert (es + [e])[..|es|] == es;
  }

  /**
   * The projection invariant: after applying `es`, a listing's record is the
   * one of its last `Listed` event if that is its last event, absent if its
   * last event is a `Canceled` or `Purchased`, and as before if `es` does not
   * mention it; set membership follows the same rule; cursor and lock stay.
   */
  lemma {:induction false} ApplyEventsViews(m: map<string, Value>, ns: string, es: seq<MarketEvent>, id: nat)
    ensures RecordAt(ApplyEvents(m, ns, es), ns, id) == Expected(RecordAt(m, ns, id), es, id)
    ensures (id in IdsOf(ApplyEvents(m, ns, es), ns)) == ActiveAfter(id in IdsOf(m, ns), es, id)
    ensures CursorOf(ApplyEvents(m, ns, es), ns) == CursorOf(m, ns)
    ensures LockHeld(ApplyEvents(m, ns, es), ns) == LockHeld(m, ns)
    decreases |es|
  {
    if es != [] {
      var init, e := es[..|es| - 1], es[|es| - 1];
      assert es == init + [e];
      var before := ApplyEvents(m, ns, init);
      ApplyEventsViews(m, ns, init, id);
      ExpectedStep(RecordAt(m, ns, id), id in IdsOf(m, ns), init, e, id);
      match e
      case Listed(x, item) => UpsertViews(before, ns, x, item, id);
      case Canceled(x) => RemoveViews(before, ns, x, id);
      case Purchased(x) => RemoveViews(before, ns, x, id);
      case Unrecognized =>
    }
  }

  /** Event order matters: `Listed` then `Canceled` nets to absent, the reverse to present. */
  lemma OrderMatters(m: map<string, Value>, ns: string, id: nat, item: Listing)
    ensures RecordAt(ApplyEvents(m, ns, [Listed(id, item), Canceled(id)]), ns, id) == None
    ensures RecordAt(ApplyEvents(m, ns, [Canceled(id), Listed(id, item)]), ns, id) == Some(item)
  {
    ApplyEventsViews(m, ns, [Listed(id, item), Canceled(id)], id);
    ApplyEventsViews(m, ns, [Canceled(id), Listed(id, item)], id);
  }

  /* ---------------- Operations ---------------- */

  /** `acquireLock(ttl)`: set the lock key only if it is absent; true iff this call set it. */
  method AcquireLock(db: Redis, ns: string) returns (ok: bool)
    modifies db
    ensures ok <==> !LockHeld(old(db.data), ns)
    ensures db.data == if ok then Acquired(old(db.data), ns) else old(db.data)
    ensures LockHeld(db.data, ns)
  {
    ok := db.SetNx(LockKey(ns), Text("1"));
  }

  /** `releaseLock()`: delete the lock key, whoever set it. */
  method ReleaseLock(db: Redis, ns: string)
    modifies db
    ensures db.data == Released(old(db.data), ns)
    ensures !LockHeld(db.data, ns)
  {
    db.Del(LockKey(ns));
  }

  /** `getLastBlock()`: the stored cursor, or 0 when there is none. */
  method GetLastBlock(db: Redis, ns: string) returns (b: nat)
    ensures b == CursorOf(db.data, ns)
    ensures LastKey(ns) !in db.data ==> b == 0
  {
    var v := db.Get(LastKey(ns));
    b := if v.Some? && v.value.Height? then v.value.block else 0;
  }

  /** `setLastBlock(b)`: a later `getLastBlock()` returns `b`. */
  method SetLastBlock(db: Redis, ns: string, b: nat)
    modifies db
    ensures db.data == WithCursor(old(db.data), ns, b)
    ensures CursorOf(db.data, ns) == b
  {
    db.Set(LastKey(ns), Height(b));
  }

  /** `upsertActive(id, item)`. */
  method UpsertActive(db: Redis, ns: string, id: nat, item: Listing)
    modifies db
    ensures db.data == Upserted(old(db.data), ns, id, item)
    ensures RecordAt(db.data, ns, id) == Some(item) && id in IdsOf(db.data, ns)
  {
    db.Set(ListingKey(ns, id), Record(item));
    db.SAdd(IdsKey(ns), id);
    UpsertViews(old(db.data), ns, id, item, id);
  }

  /** `removeActive(id)`. */
  method RemoveActive(db: Redis, ns: string, id: nat)
    modifies db
    ensures db.data == Removed(old(db.data), ns, id)
    ensures RecordAt(db.data, ns, id) == None && id !in IdsOf(db.data, ns)
  {
    db.Del(ListingKey(ns, id));
    db.SRem(IdsKey(ns), id);
    RemoveViews(old(db.data), ns, id, id);
  }

  /**
   * `readAllActive()`: one row per member of the id set whose record is
   * present and parses, each carrying that record; members without one are
   * dropped.
   */
  method ReadAllActive(db: Redis, ns: string) returns (rows: seq<Row>)
    ensures IdsOf(db.data, ns) == {} ==> rows == []
    ensures forall k :: 0 <= k < |rows| ==>
              rows[k].id in IdsOf(db.data, ns) && RecordAt(db.data, ns, rows[k].id) == Some(rows[k].item)
    ensures forall id :: id in IdsOf(db.data, ns) && RecordAt(db.data, ns, id).Some? ==>
              Row(id, RecordAt(db.data, ns, id).value) in rows
    ensures DistinctIds(rows)
    ensures |rows| <= |IdsOf(db.data, ns)|
  {
    var ids := db.SMembers(IdsKey(ns));
    if |ids| == 0 {
      return [];
    }
    var keys := seq(|ids|, i requires 0 <= i < |ids| => ListingKey(ns, ids[i]));
    var vals := db.MGet(keys);
    rows := [];
    for i := 0 to |ids|
      invariant |rows| <= i
      invariant forall k :: 0 <= k < |rows| ==>
                  rows[k].id in ids[..i] && RecordAt(db.data, ns, rows[k].id) == Some(rows[k].item)
      invariant forall j :: 0 <= j < i && RecordAt(db.data, ns, ids[j]).Some? ==>
                  Row(ids[j], RecordAt(db.data, ns, ids[j]).value) in rows
      invariant DistinctIds(rows)
    {
      if vals[i].Some? && vals[i].value.Record? {
        assert ids[i] !in ids[..i];
        rows := rows + [Row(ids[i], vals[i].value.item)];
      }
    }
    assert ids[..|ids|] == ids;
  }
}

=== FILE: strings.dfy ===
/**
 * The string operations the indexer relies on: `startsWith`, `includes`,
 * `replace` with a string pattern (first occurrence only), ASCII
 * `toLowerCase`, and the decimal text of an unsigned big integer
 * (`String(bigint)` / `BigInt(string)`).
 */
module Strings {
  import opened Wrappers

  predicate StartsWith(s: string, prefix: string) {
    |prefix| <= |s| && s[..|prefix|] == prefix
  }

  /** `pat` occurs in `s` starting at index `i`. */
  predicate OccursAt(s: string, pat: string, i: nat) {
    i + |pat| <= |s| && s[i..i + |pat|] == pat
  }

  /** First index at or after `from` where `pat` occurs. */
  function IndexFrom(s: string, pat: string, from: nat): (r: Option<nat>)
    ensures r.Some? ==> from <= r.value && OccursAt(s, pat, r.value)
    ensures r.Some? ==> forall j :: from <= j < r.value ==> !OccursAt(s, pat, j)
    ensures r.None? ==> forall j :: from <= j ==> !OccursAt(s, pat, j)
    decreases |s| - from
  {
    if from + |pat| > |s| then None
    else if s[from..from + |pat|] == pat then Some(from)
    else IndexFrom(s, pat, from + 1)
  }

  /** `s.indexOf(pat)`, as an option instead of -1. */
  function IndexOf(s: string, pat: string): Option<nat> {
    IndexFrom(s, pat, 0)
  }

  /** `s.includes(pat)`: `pat` occurs somewhere in `s`. */
  predicate Contains(s: string, pat: string): (r: bool)
    ensures r <==> exists i: nat :: OccursAt(s, pat, i)
  {
    IndexOf(s, pat).Some?
  }

  /** `s.replace(pat, rep)` with a string pattern: only the first occurrence is replaced. */
  function ReplaceFirst(s: string, pat: string, rep: string): string {
    match IndexOf(s, pat)
    case None => s
    case Some(i) => s[..i] + rep + s[i + |pat|..]
  }

  /** A prefix is its own first occurrence, so replacing it by "" strips exactly the prefix. */
  lemma StripPrefix(s: string, prefix: string)
    requires StartsWith(s, prefix)
    ensures ReplaceFirst(s, prefix, "") == s[|prefix|..]
  {
    assert OccursAt(s, prefix, 0);
  }

  function LowerChar(c: char): char {
    if 'A' <= c <= 'Z' then (c as int - 'A' as int + 'a' as int) as char else c
  }

  /**
   * ASCII `toLowerCase()`: no upper-case letter is left, each upper-case
   * letter becomes its lower-case partner (32 code points further), and
   * every other character is kept.
   */
  function Lower(s: string): (r: string)
    ensures |r| == |s|
    ensures forall i :: 0 <= i < |r| ==> !('A' <= r[i] <= 'Z')
    ensures forall i :: 0 <= i < |s| && !('A' <= s[i] <= 'Z') ==> r[i] == s[i]
    ensures forall i :: 0 <= i < |s| && 'A' <= s[i] <= 'Z' ==> r[i] as int == s[i] as int + 32
  {
    seq(|s|, i requires 0 <= i < |s| => LowerChar(s[i]))
  }

  /** Lower-casing twice is lower-casing once. */
  lemma LowerIdempotent(s: string)
    ensures Lower(Lower(s)) == Lower(s)
  {
  }

  predicate IsDigit(c: char) {
    '0' <= c <= '9'
  }

  function DigitChar(d: nat): (c: char)
    requires d < 10
    ensures IsDigit(c)
  {
    ('0' as int + d) as char
  }

  function DigitValue(c: char): nat
    requires IsDigit(c)
  {
    c as int - '0' as int
  }

  /** `String(n)` for an unsigned big integer: its decimal digits, no leading zero. */
  function Decimal(n: nat): (s: string)
    ensures 1 <= |s|
    ensures forall i :: 0 <= i < |s| ==> IsDigit(s[i])
    ensures |s| > 1 ==> s[0] != '0'
  {
    if n < 10 then [DigitChar(n)] else Decimal(n / 10) + [DigitChar(n % 10)]
  }

  /** `BigInt(s)` for a string of decimal digits. */
  function ParseDecimal(s: string): nat
    requires forall i :: 0 <= i < |s| ==> IsDigit(s[i])
  {
    if s == [] then 0 else ParseDecimal(s[..|s| - 1]) * 10 + DigitValue(s[|s| - 1])
  }

  /** Reading back the decimal text of `n` gives `n`. */
  lemma {:induction false} ParseDecimalOfDecimal(n: nat)
    ensures ParseDecimal(Decimal(n)) == n
  {
    if n >= 10 {
      var s := Decimal(n);
      assert s[..|s| - 1] == Decimal(n / 10);
      ParseDecimalOfDecimal(n / 10);
    }
  }

  /** Distinct numbers have distinct decimal texts. */
  lemma DecimalInjective(a: nat, b: nat)
    requires Decimal(a) == Decimal(b)
    ensures a == b
  {
    ParseDecimalOfDecimal(a);
    ParseDecimalOfDecimal(b);
  }
}

=== FILE: sync.dfy ===
/**
 * The sync engine (`runSync`): take the lock, compute the confirmed tip and
 * the start block, walk the window in adaptively sized chunks, apply each
 * chunk's events to the store and advance the cursor, and release the lock
 * on every way out.
 */
module Sync {
  import opened Wrappers
  import opened Strings
  import opened Events
  import opened Provider
  import opened Kv
  import opened Storage

  /** The smallest span the engine asks the provider for. */
  const MinSpan: int := 10

  /** `INDEXER_DEPLOY_BLOCK`, `INDEXER_CONFIRMATIONS`, `INDEXER_REORG_BACKTRACK`, `INDEXER_MAX_BLOCK_SPAN`. */
  datatype Config = Config(deployBlock: nat, confirmations: nat, reorgBacktrack: nat, maxBlockSpan: int)

  /** The values used when the environment sets none. */
  const Defaults: Config := Config(0, 12, 200, 100)

  /** The caller's optional overrides `opts.from` and `opts.span`. */
  datatype Options = Options(from: Option<int>, span: Option<int>)

  datatype SyncResult = SyncResult(scanned: nat, from: nat, to: nat, safeTip: nat)

  /** The all-zero summary: returned when the lock is taken, and when the confirmed tip is 0. */
  const Idle: SyncResult := SyncResult(0, 0, 0, 0)

  /** A run either completes with a summary or ends with the provider error it could not absorb. */
  datatype Outcome = Completed(result: SyncResult) | Failed(error: RpcError)

  /**
   * One successfully fetched window `[from, to]`, the logs the provider
   * returned for it, and how many wider windows at `from` the provider had
   * refused as too large just before.
   */
  datatype Chunk = Chunk(from: nat, to: nat, logs: seq<Log>, refusals: nat)

  /** The provider's `getLogs` for the marketplace address over `[from, to]`. */
  type LogSource = (nat, nat) -> Response<seq<Log>>

  function Max(a: int, b: int): int { if a < b then b else a }

  /** The highest block old enough to index: `tip - confirmations`, or 0 when the chain is younger. */
  function SafeTip(tip: nat, cfg: Config): (r: nat)
    ensures r <= tip
    ensures r == 0 <==> tip <= cfg.confirmations
    ensures r > 0 ==> tip - r == cfg.confirmations
  {
    if tip > cfg.confirmations then tip - cfg.confirmations else 0
  }

  /**
   * The first block to scan: the caller's `from`, else the cursor minus the
   * reorg backtrack, else the deploy block (or the confirmed tip when no
   * deploy block is configured), never below the deploy block.
   */
  function StartBlock(cfg: Config, requested: Option<int>, last: nat, safeTip: nat): (r: nat)
    ensures r >= cfg.deployBlock
    ensures requested.Some? ==> r == Max(requested.value, cfg.deployBlock)
    ensures requested.None? && last > 0 ==> r == Max(last - cfg.reorgBacktrack, cfg.deployBlock)
    ensures requested.None? && last > 0 && last - cfg.reorgBacktrack >= cfg.deployBlock ==>
              last - r == cfg.reorgBacktrack
    ensures requested.None? && last == 0 ==> r == if cfg.deployBlock > 0 then cfg.deployBlock else safeTip
  {
    var from :=
      if requested.Some? then requested.value
      else if last > 0 then last - cfg.reorgBacktrack
      else if cfg.deployBlock != 0 then cfg.deployBlock else safeTip;
    if from < cfg.deployBlock then cfg.deployBlock else from
  }

  /** The preferred span: `opts.span ?? MAX_BLOCK_SPAN`, raised to at least `MinSpan`. */
  function PreferredSpan(requested: Option<int>, cfg: Config): (r: int)
    ensures r >= MinSpan && r >= requested.GetOr(cfg.maxBlockSpan)
    ensures r == requested.GetOr(cfg.maxBlockSpan) || r == MinSpan
  {
    var span := requested.GetOr(cfg.maxBlockSpan);
    if span < MinSpan then MinSpan else span
  }

  /** The span after a "range too large" error, exactly as written: halve above 10, else 10. */
  function ShrinkAsWritten(span: int): (r: int)
    ensures span > MinSpan ==> 2 * r <= span < 2 * r + 2
    ensures span <= MinSpan ==> r == MinSpan
  {
    if span > MinSpan then span / 2 else MinSpan
  }

  /** Halving a span between 11 and 19 lands below the floor that the rest of the engine keeps. */
  lemma ShrinkAsWrittenBreaksFloor(span: int)
    requires MinSpan < span < 2 * MinSpan
    ensures ShrinkAsWritten(span) < MinSpan
  {
  }

  /** With the default maximum of 100 blocks, three shrinks reach 12, the fourth gives 6, and the fifth grows back to 10. */
  lemma DefaultSpanDipsToSix()
    ensures ShrinkAsWritten(ShrinkAsWritten(ShrinkAsWritten(Defaults.maxBlockSpan))) == 12
    ensures ShrinkAsWritten(12) == 6
    ensures ShrinkAsWritten(6) == MinSpan
  {
  }

  /** The span after a "range too large" error: half of it, but never below `MinSpan`. */
  function Shrink(span: int): (r: int)
    requires span >= MinSpan
    ensures MinSpan <= r <= span
    ensures span > MinSpan ==> r < span
    ensures r == Max(span / 2, MinSpan)
  {
    if span > MinSpan then Max(span / 2, MinSpan) else MinSpan
  }

  /** The last block of the chunk that starts at `from`: `min(from + span - 1, safeTip)`. */
  function ChunkEnd(from: nat, span: int, safeTip: nat): (r: nat)
    requires from <= safeTip && span >= 1
    ensures from <= r <= safeTip
    ensures r - from + 1 <= span
    ensures r < safeTip ==> r - from + 1 == span
  {
    if from + span - 1 > safeTip then safeTip else from + span - 1
  }

  /**
   * The span in force at a block after `k` "range too large" answers in a row
   * there, as the loop computes it: the preferred span, halved as written at
   * each refusal. It stays between 5 and the preferred span.
   */
  function SpanAfter(k: nat, preferred: int): (r: int)
    requires preferred >= MinSpan
    ensures MinSpan / 2 <= r <= preferred
  {
    if k == 0 then preferred else ShrinkAsWritten(SpanAfter(k - 1, preferred))
  }

  /** The last block of the `k`-th attempt at `from` (counting from 0). */
  function Attempt(from: nat, k: nat, preferred: int, safeTip: nat): (r: nat)
    requires from <= safeTip && preferred >= MinSpan
    ensures from <= r <= safeTip && r - from + 1 <= preferred
  {
    ChunkEnd(from, SpanAfter(k, preferred), safeTip)
  }

  /** The first `k` attempts at `from` were each refused as too large. */
  ghost predicate Refused(getLogs: LogSource, from: nat, k: nat, preferred: int, safeTip: nat)
    requires from <= safeTip && preferred >= MinSpan
    decreases k
  {
    k > 0 ==>
      TooLarge(getLogs(from, Attempt(from, k - 1, preferred, safeTip))) &&
      Refused(getLogs, from, k - 1, preferred, safeTip)
  }

  /**
   * The span policy: each chunk is the attempt at its first block that
   * followed its refusals, every earlier attempt there having been refused as
   * too large. Each block is first tried at the preferred span, since the
   * span goes back to it after every success.
   */
  ghost predicate Paced(cs: seq<Chunk>, getLogs: LogSource, preferred: int, safeTip: nat)
    requires preferred >= MinSpan
    decreases |cs|
  {
    cs != [] ==>
      var c := cs[|cs| - 1];
      && c.from <= safeTip
      && c.to == Attempt(c.from, c.refusals, preferred, safeTip)
      && Refused(getLogs, c.from, c.refusals, preferred, safeTip)
      && Paced(cs[..|cs| - 1], getLogs, preferred, safeTip)
  }

  /**
   * The provider error means "range too large": its message mentions
   * "exceeds max results" or "Invalid parameters", or its code is -32602.
   */
  predicate IsRangeTooLarge(e: RpcError): (r: bool)
    ensures r <==> (exists i: nat :: OccursAt(e.message, "exceeds max results", i)) ||
                   (exists i: nat :: OccursAt(e.message, "Invalid parameters", i)) ||
                   e.code == Some(-32602)
  {
    Contains(e.message, "exceeds max results") || Contains(e.message, "Invalid parameters") || e.code == Some(-32602)
  }

  predicate TooLarge(r: Response<seq<Log>>) {
    r.Err? && IsRangeTooLarge(r.error)
  }

  /** The chunks cover `[start, next - 1]` one after another, without gap or overlap. */
  ghost predicate Tiles(cs: seq<Chunk>, start: int, next: int)
    decreases |cs|
  {
    if cs == [] then next == start
    else
      var c := cs[|cs| - 1];
      c.from <= c.to && c.to + 1 == next && Tiles(cs[..|cs| - 1], start, c.from)
  }

  /** Every chunk holds exactly what the provider returned for its window. */
  ghost predicate Fetched(cs: seq<Chunk>, getLogs: LogSource)
    decreases |cs|
  {
    cs != [] ==>
      var c := cs[|cs| - 1];
      getLogs(c.from, c.to) == Ok(c.logs) && Fetched(cs[..|cs| - 1], getLogs)
  }

  /** Every chunk ends at or before `safeTip` and is at most `span` blocks wide. */
  ghost predicate Bounded(cs: seq<Chunk>, span: int, safeTip: nat)
    decreases |cs|
  {
    cs != [] ==>
      var c := cs[|cs| - 1];
      c.to <= safeTip && c.to - c.from + 1 <= span && Bounded(cs[..|cs| - 1], span, safeTip)
  }

  /**
   * Tiling, read chunk by chunk: the first chunk starts at `start`, every
   * chunk is a non-empty window, each starts right after the one before, and
   * the last ends just before `next`.
   */
  lemma {:induction false} TilesWindows(cs: seq<Chunk>, start: int, next: int)
    requires Tiles(cs, start, next)
    ensures cs == [] ==> next == start
    ensures cs != [] ==> cs[0].from == start && cs[|cs| - 1].to + 1 == next
    ensures forall i :: 0 <= i < |cs| ==> cs[i].from <= cs[i].to
    ensures forall i :: 0 <= i < |cs| - 1 ==> cs[i].to + 1 == cs[i + 1].from
    decreases |cs|
  {
    if cs != [] {
      var init := cs[..|cs| - 1];
      TilesWindows(init, start, cs[|cs| - 1].from);
      assert forall i :: 0 <= i < |init| ==> init[i] == cs[i];
    }
  }

  /** Every chunk holds the provider's answer for its window, and fits `span` and `safeTip`. */
  lemma {:induction false} FetchedBoundedWindows(cs: seq<Chunk>, getLogs: LogSource, span: int, safeTip: nat)
    requires Fetched(cs, getLogs) && Bounded(cs, span, safeTip)
    ensures forall i :: 0 <= i < |cs| ==> getLogs(cs[i].from, cs[i].to) == Ok(cs[i].logs)
    ensures forall i :: 0 <= i < |cs| ==> cs[i].to <= safeTip && cs[i].to - cs[i].from + 1 <= span
    decreases |cs|
  {
    if cs != [] {
      var init := cs[..|cs| - 1];
      FetchedBoundedWindows(init, getLogs, span, safeTip);
      assert forall i :: 0 <= i < |init| ==> init[i] == cs[i];
    }
  }

  /** The first block after the chunks. */
  function Reach(cs: seq<Chunk>, start: nat): nat {
    if cs == [] then start else cs[|cs| - 1].to + 1
  }

  /** Appending the next window keeps the tiling, the provenance and the bounds. */
  lemma ExtendChunks(cs: seq<Chunk>, c: Chunk, start: nat, getLogs: LogSource, span: int, safeTip: nat)
    requires Tiles(cs, start, c.from) && c.from <= c.to
    requires Fetched(cs, getLogs) && getLogs(c.from, c.to) == Ok(c.logs)
    requires Bounded(cs, span, safeTip) && c.to <= safeTip && c.to - c.from + 1 <= span
    ensures Tiles(cs + [c], start, c.to + 1) && Reach(cs + [c], start) == c.to + 1
    ensures Fetched(cs + [c], getLogs) && Bounded(cs + [c], span, safeTip)
  {
    assert (cs + [c])[..|cs|] == cs;
  }

  /** Appending a window fetched by the policy keeps the chunks paced. */
  lemma ExtendPaced(cs: seq<Chunk>, c: Chunk, getLogs: LogSource, preferred: int, safeTip: nat)
    requires preferred >= MinSpan && Paced(cs, getLogs, preferred, safeTip)
    requires c.from <= safeTip && c.to == Attempt(c.from, c.refusals, preferred, safeTip)
    requires Refused(getLogs, c.from, c.refusals, preferred, safeTip)
    ensures Paced(cs + [c], getLogs, preferred, safeTip)
  {
    assert (cs + [c])[..|cs|] == cs;
  }

  /** The chunks so far: they tile `[start, next - 1]`, come from the provider, fit the bounds and follow the span policy. */
  ghost predicate Scanned(cs: seq<Chunk>, start: nat, next: nat, getLogs: LogSource, preferred: int, safeTip: nat)
    requires preferred >= MinSpan
  {
    Tiles(cs, start, next) && Reach(cs, start) == next && Fetched(cs, getLogs) &&
    Bounded(cs, preferred, safeTip) && Paced(cs, getLogs, preferred, safeTip)
  }

  /** A window fetched by the policy right after the chunks extends them. */
  lemma ExtendScanned(cs: seq<Chunk>, c: Chunk, start: nat, getLogs: LogSource, preferred: int, safeTip: nat)
    requires preferred >= MinSpan && Scanned(cs, start, c.from, getLogs, preferred, safeTip)
    requires c.from <= safeTip && c.to == Attempt(c.from, c.refusals, preferred, safeTip)
    requires Refused(getLogs, c.from, c.refusals, preferred, safeTip) && getLogs(c.from, c.to) == Ok(c.logs)
    ensures Scanned(cs + [c], start, c.to + 1, getLogs, preferred, safeTip)
  {
    ExtendChunks(cs, c, start, getLogs, preferred, safeTip);
    ExtendPaced(cs, c, getLogs, preferred, safeTip);
  }

  /** Successive chunk ends, and so successive cursor writes, strictly increase. */
  lemma {:induction false} CursorWritesIncrease(cs: seq<Chunk>, start: int, next: int, i: int, j: int)
    requires Tiles(cs, start, next)
    requires 0 <= i < j < |cs|
    ensures cs[i].to < cs[j].to
    decreases j - i
  {
    TilesWindows(cs, start, next);
    assert cs[j - 1].to + 1 == cs[j].from <= cs[j].to;
    if i < j - 1 {
      CursorWritesIncrease(cs, start, next, i, j - 1);
    }
  }

  /** The events of the chunks, chunk after chunk, each in log order. */
  function ChunkEvents(cs: seq<Chunk>, decode: Decoder): seq<MarketEvent> {
    if cs == [] then [] else ChunkEvents(cs[..|cs| - 1], decode) + EventsOf(cs[|cs| - 1].logs, decode)
  }

  /** One chunk's writes: its events, then the cursor set to its end. */
  function ApplyChunk(m: map<string, Value>, ns: string, decode: Decoder, c: Chunk): map<string, Value> {
    WithCursor(ApplyEvents(m, ns, EventsOf(c.logs, decode)), ns, c.to)
  }

  function ApplyChunks(m: map<string, Value>, ns: string, decode: Decoder, cs: seq<Chunk>): map<string, Value> {
    if cs == [] then m else ApplyChunk(ApplyChunks(m, ns, decode, cs[..|cs| - 1]), ns, decode, cs[|cs| - 1])
  }

  /** Applying one more chunk is applying it to the store the earlier chunks left. */
  lemma ApplyChunksSnoc(m: map<string, Value>, ns: string, decode: Decoder, cs: seq<Chunk>, c: Chunk)
    ensures ApplyChunks(m, ns, decode, cs + [c]) == ApplyChunk(ApplyChunks(m, ns, decode, cs), ns, decode, c)
  {
    assert (cs + [c])[..|cs|] == cs;
  }

  /**
   * The store after a sequence of chunks is the store after all their events
   * in order, with the cursor at the last chunk's end; the lock is untouched.
   */
  lemma {:induction false} ApplyChunksViews(m: map<string, Value>, ns: string, decode: Decoder, cs: seq<Chunk>, id: nat)
    ensures RecordAt(ApplyChunks(m, ns, decode, cs), ns, id) == Expected(RecordAt(m, ns, id), ChunkEvents(cs, decode), id)
    ensures (id in IdsOf(ApplyChunks(m, ns, decode, cs), ns)) == ActiveAfter(id in IdsOf(m, ns), ChunkEvents(cs, decode), id)
    ensures CursorOf(ApplyChunks(m, ns, decode, cs), ns) == if cs == [] then CursorOf(m, ns) else cs[|cs| - 1].to
    ensures LockHeld(ApplyChunks(m, ns, decode, cs), ns) == LockHeld(m, ns)
    decreases |cs|
  {
    if cs != [] {
      var init, c := cs[..|cs| - 1], cs[|cs| - 1];
      var before := ApplyChunks(m, ns, decode, init);
      var es := EventsOf(c.logs, decode);
      var mid := ApplyEvents(before, ns, es);
      assert ApplyChunks(m, ns, decode, cs) == WithCursor(mid, ns, c.to);
      assert ChunkEvents(cs, decode) == ChunkEvents(init, decode) + es;
      ApplyChunksViews(m, ns, decode, init, id);
      ApplyEventsViews(before, ns, es, id);
      CursorViews(mid, ns, c.to, id);
      ExpectedAppend(RecordAt(m, ns, id), id in IdsOf(m, ns), ChunkEvents(init, decode), es, id);
    }
  }

  /**
   * The net effect of a run that took the lock, whatever its outcome: every
   * listing is as the chunks' events leave it, the cursor is the last chunk's
   * end (unchanged when no chunk was fetched), and the lock is free.
   */
  lemma RunEffect(m: map<string, Value>, ns: string, decode: Decoder, cs: seq<Chunk>, id: nat)
    ensures var after := Released(ApplyChunks(Acquired(m, ns), ns, decode, cs), ns);
            && RecordAt(after, ns, id) == Expected(RecordAt(m, ns, id), ChunkEvents(cs, decode), id)
            && (id in IdsOf(after, ns)) == ActiveAfter(id in IdsOf(m, ns), ChunkEvents(cs, decode), id)
            && CursorOf(after, ns) == (if cs == [] then CursorOf(m, ns) else cs[|cs| - 1].to)
            && !LockHeld(after, ns)
  {
    var held := Acquired(m, ns);
    LockViews(m, ns, id);
    ApplyChunksViews(held, ns, decode, cs, id);
    LockViews(ApplyChunks(held, ns, decode, cs), ns, id);
  }

  /** Apply one chunk's logs in order: `Listed` upserts, `Canceled`/`Purchased` remove, the rest is skipped. */
  method ApplyLogs(db: Redis, ns: string, logs: seq<Log>, decode: Decoder)
    modifies db
    ensures db.data == ApplyEvents(old(db.data), ns, EventsOf(logs, decode))
  {
    for i := 0 to |logs|
      invariant db.data == ApplyEvents(old(db.data), ns, EventsOf(logs[..i], decode))
    {
      var decoded := decode(ToTopics(logs[i].topics), logs[i].data);
      var e := Classify(decoded);
      EventsOfPrefix(logs, i, decode);
      ApplyEventsSnoc(old(db.data), ns, EventsOf(logs[..i], decode), e);
      match e {
        case Listed(id, item) => UpsertActive(db, ns, id, item);
        case Canceled(id) => RemoveActive(db, ns, id);
        case Purchased(id) => RemoveActive(db, ns, id);
        case Unrecognized =>
      }
    }
    assert logs[..|logs|] == logs;
  }

  /** One fetched window: apply its logs, then move the cursor to its last block. */
  method ApplyWindow(db: Redis, ns: string, to: nat, logs: seq<Log>, decode: Decoder)
    modifies db
    ensures db.data == WithCursor(ApplyEvents(old(db.data), ns, EventsOf(logs, decode)), ns, to)
  {
    ApplyLogs(db, ns, logs, decode);
    SetLastBlock(db, ns, to);
  }

  /**
   * The chunk loop of `runSync`: walk `[start, safeTip]` in windows of at most
   * `preferred` blocks, halving the span (as written) and retrying the same
   * window when the provider says the range is too large, applying each
   * fetched window and moving the cursor to its end, then going back to the
   * preferred span. Stops at the first other error, which the provider gave
   * for the attempt in progress.
   */
  method ScanWindow(db: Redis, ns: string, start: nat, safeTip: nat, preferred: int,
                    getLogs: LogSource, decode: Decoder)
    returns (failure: Option<RpcError>, scanned: nat, ghost chunks: seq<Chunk>)
    requires start <= safeTip && preferred >= MinSpan
    requires forall f: nat, t: nat :: f <= t < f + MinSpan ==> !TooLarge(getLogs(f, t))
    modifies db
    ensures db.data == ApplyChunks(old(db.data), ns, decode, chunks)
    ensures Tiles(chunks, start, Reach(chunks, start))
    ensures Fetched(chunks, getLogs) && Bounded(chunks, preferred, safeTip)
    ensures Paced(chunks, getLogs, preferred, safeTip)
    ensures failure.None? ==> Reach(chunks, start) == safeTip + 1 && scanned == safeTip - start + 1
    ensures failure.Some? ==>
              var from := Reach(chunks, start);
              && from <= safeTip && !IsRangeTooLarge(failure.value)
              && exists k: nat :: Refused(getLogs, from, k, preferred, safeTip) &&
                                  getLogs(from, Attempt(from, k, preferred, safeTip)) == Err(failure.value)
  {
    chunks := [];
    var span := preferred;
    var from: nat := start;
    ghost var refusals: nat := 0;
    scanned := 0;
    while from <= safeTip
      invariant start <= from <= safeTip + 1
      invariant span == SpanAfter(refusals, preferred)
      invariant scanned == from - start
      invariant Scanned(chunks, start, from, getLogs, preferred, safeTip)
      invariant from <= safeTip ==> Refused(getLogs, from, refusals, preferred, safeTip)
      invariant db.data == ApplyChunks(old(db.data), ns, decode, chunks)
      decreases safeTip + 1 - from, span
    {
      var to := ChunkEnd(from, span, safeTip);
      var response := getLogs(from, to);
      if response.Err? {
        if IsRangeTooLarge(response.error) {
          // retry the same window with a smaller span
          span := ShrinkAsWritten(span);
          refusals := refusals + 1;
        } else {
          assert getLogs(from, Attempt(from, refusals, preferred, safeTip)) == Err(response.error);
          return Some(response.error), scanned, chunks;
        }
      } else {
        ApplyWindow(db, ns, to, response.value, decode);
        ghost var c := Chunk(from, to, response.value, refusals);
        ExtendScanned(chunks, c, start, getLogs, preferred, safeTip);
        ApplyChunksSnoc(old(db.data), ns, decode, chunks, c);
        chunks := chunks + [c];
        scanned := scanned + (to - from + 1);
        from := to + 1;
        // after a successful window, back to the preferred span
        span := preferred;
        refusals := 0;
      }
    }
    failure := None;
  }

  /**
   * `runSync(opts)`. `tip` is the provider's answer to `getBlockNumber`,
   * `getLogs` its answer to a log query over a window. The provider must
   * accept every window of at most `MinSpan` blocks. That is a simple
   * sufficient condition for the loop to end, not a necessary one: without
   * it the source may retry the same window forever.
   */
  method RunSync(db: Redis, ns: string, cfg: Config, opts: Options, tip: Response<nat>,
                 getLogs: LogSource, decode: Decoder)
    returns (outcome: Outcome, ghost chunks: seq<Chunk>)
    requires forall f: nat, t: nat :: f <= t < f + MinSpan ==> !TooLarge(getLogs(f, t))
    modifies db
    ensures LockHeld(old(db.data), ns) ==> outcome == Completed(Idle) && chunks == [] && db.data == old(db.data)
    ensures !LockHeld(old(db.data), ns) ==>
              db.data == Released(ApplyChunks(Acquired(old(db.data), ns), ns, decode, chunks), ns)
    ensures !LockHeld(old(db.data), ns) && tip.Err? ==> outcome == Failed(tip.error) && chunks == []
    ensures !LockHeld(old(db.data), ns) && tip.Ok? && SafeTip(tip.value, cfg) == 0 ==>
              outcome == Completed(Idle) && chunks == []
    ensures !LockHeld(old(db.data), ns) && tip.Ok? && SafeTip(tip.value, cfg) > 0 ==>
              var safe := SafeTip(tip.value, cfg);
              var start := StartBlock(cfg, opts.from, CursorOf(old(db.data), ns), safe);
              && (start > safe ==> outcome == Completed(SyncResult(0, start, safe, safe)) && chunks == [])
              && (start <= safe ==>
                    && Tiles(chunks, start, Reach(chunks, start))
                    && Fetched(chunks, getLogs)
                    && Bounded(chunks, PreferredSpan(opts.span, cfg), safe)
                    && Paced(chunks, getLogs, PreferredSpan(opts.span, cfg), safe)
                    && (outcome.Completed? ==>
                          Reach(chunks, start) == safe + 1 &&
                          outcome.result == SyncResult(safe - start + 1, safe, safe, safe))
                    && (outcome.Failed? ==>
                          var from := Reach(chunks, start);
                          && from <= safe && !IsRangeTooLarge(outcome.error)
                          && exists k: nat :: Refused(getLogs, from, k, PreferredSpan(opts.span, cfg), safe) &&
                                              getLogs(from, Attempt(from, k, PreferredSpan(opts.span, cfg), safe)) ==
                                              Err(outcome.error)))
  {
    chunks := [];
    var gotLock := AcquireLock(db, ns);
    if !gotLock {
      return Completed(Idle), chunks;
    }
    KeysDistinct(ns, 0, 0);

    if tip.Err? {
      ReleaseLock(db, ns);
      return Failed(tip.error), chunks;
    }
    var safeTip := SafeTip(tip.value, cfg);
    if safeTip == 0 {
      ReleaseLock(db, ns);
      return Completed(SyncResult(0, 0, 0, safeTip)), chunks;
    }

    var lastProcessed := GetLastBlock(db, ns);
    var start := StartBlock(cfg, opts.from, lastProcessed, safeTip);
    if start > safeTip {
      ReleaseLock(db, ns);
      return Completed(SyncResult(0, start, safeTip, safeTip)), chunks;
    }

    var failure, scanned;
    failure, scanned, chunks := ScanWindow(db, ns, start, safeTip, PreferredSpan(opts.span, cfg), getLogs, decode);
    if failure.Some? {
      ReleaseLock(db, ns);
      return Failed(failure.value), chunks;
    }
    var cursor := GetLastBlock(db, ns);
    ReleaseLock(db, ns);
    return Completed(SyncResult(scanned, cursor, safeTip, safeTip)), chunks;
  }
}

=== FILE: wrappers.dfy ===
/** Optional values, standing in for the source's `undefined` / `null`. */
module Wrappers {

  datatype Option<+T> = None | Some(value: T) {

    /** The value, or `default` when there is none (JavaScript's `??`). */
    function GetOr(default: T): T {
      match this
      case Some(v) => v
      case None => default
    }
  }
}
